=== FILE: README.md ===
# Renko bars with wicks

A model of the Renko-with-wicks bars type. The builder turns a stream of
data points into fixed-size bricks. It keeps five fields:
- `offset`: the brick size, which is the configured value times the tick size;
- `renkoHigh` and `renkoLow`: the breakout thresholds;
- `currentWickHigh` and `currentWickLow`: the highest high and lowest low
  seen while the current brick formed.

It writes the host's bar list only through `AddBar`, `RemoveLastBar` and
`UpdateBar`.

For each data point, `OnDataPoint` does one of the following:
- **Start.** On the first data point, or on a new session when the series
  resets every trading day, it flattens the last bar at its own close and
  opens a flat bar between fresh thresholds.
- **Re-seed.** It widens the wicks, and if a threshold is still zero it
  re-seeds both thresholds from the bars.
- **Upward breakout.** When the close reaches `renkoHigh`:
  1. it rewrites the open bar into its closed shape;
  2. it moves the thresholds;
  3. it appends one zero-volume brick for every further brick size the close
     travelled;
  4. it opens a new brick one brick size below the new `renkoHigh`, which
     is at most one brick size below the close; its close, and its high
     (upward) or low (downward), are the point's close.
- **Downward breakout.** The mirror of the upward case.
- **No breakout.** It updates the open bar in place.

Files:
- `bars.dfy` (module `Data`): the bar record and the host objects the
  builder uses. The bar list is the class `Bars`, with its three mutators.
  The brick-size setting is the class `BarsPeriod`.
- `renko_spec.dfy` (module `RenkoSpec`): one data point as a pure function
  `Step` on the builder's fields and the bar list, branch by branch.
  - `FillUp` and `FillDown` are the two gap-fill loops, written as
    recursion.
  - `Run` feeds a whole stream.
- `renko_wicks_bars_type.dfy` (module `BarsTypes`): the class
  `RenkoWicksBarsType`, with the fields above.
  - `OnDataPoint` updates them and the `Bars` object in place.
  - It is proved to leave exactly the state `Step` describes.
  - The gap-fill `while` loops are proved against `FillUp` and `FillDown`.
- `renko_properties.dfy` (module `RenkoProperties`): what one data point
  does, what a whole stream keeps invariant, and the shape of every brick
  a breakout writes.
- `brick_close_finding.dfy` (module `BrickCloseFinding`): the breakout
  correction issue listed under Findings.

Prices, times and volumes are integers. A price is a whole number of one
fixed smallest price unit, and the instrument's tick size is a positive
whole number of that unit, so the brick size `offset` (configured value ×
tick size) is one too. The host's tolerance comparisons (`ApproxCompare`)
become exact comparisons. The "threshold not set" test
`== 0` becomes an exact zero test. Brick size and tick size are required to
be positive. The host validates this when the series is configured, and
without it the gap-fill loops need not end.

Four behaviours of the code are easy to miss:
- After a breakout, the code sets the thresholds three brick sizes apart,
  not two. `renkoLow` becomes `renkoHigh - 2*offset` before `renkoHigh` moves
  up by `offset`. The same happens in the re-seed from an earlier bar.
- Gap-fill bricks have a body from `renkoHigh - offset` to `renkoHigh`.
  They are not flat bars at the threshold.
- A closed brick's body is not always one brick size wide. Session
  flattening writes a flat bar. The correction issue under Findings keeps
  a stale close, which can lie anywhere strictly between the thresholds, so
  the body can be narrower than a brick, flat, reversed or wider than a
  brick.
- The lazy re-seed rebuilds the thresholds of a builder whose fields are
  still zero but leaves its wicks at zero. The low wick then stays at
  `Min(0, low)`, so the next no-breakout update writes the open bar's low
  as 0 for positive prices (`RenkoProperties.ZeroWicksSurviveReseed`).

## Model

| member | source | states |
|---|---|---|
| BarsTypes.ApplyDefaultValue | RenkoWicks/BarsTypes/RenkoWicksBarsType.cs:28-31 | the bars period's value becomes the default brick size 20 |
| BarsTypes.RenkoWicksBarsType.OnDataPoint | RenkoWicks/BarsTypes/RenkoWicksBarsType.cs:55-256 | offset becomes value × tick size; the builder's fields and the bar list become exactly `Step` of their old values; the last price becomes the close |
| BarsTypes.RenkoWicksBarsType.StartSeries | RenkoWicks/BarsTypes/RenkoWicksBarsType.cs:70-96 | the fields and bars become `Seed`: an existing last bar is replaced by a flat bar at its own close, time and volume; a flat bar at the close is appended; thresholds are close ± offset; both wicks equal the close |
| BarsTypes.RenkoWicksBarsType.ReseedIfUnset | RenkoWicks/BarsTypes/RenkoWicksBarsType.cs:111-131 | the thresholds become `Reseed` of the old state, and the bars and the offset are untouched |
| BarsTypes.RenkoWicksBarsType.BreakoutUp | RenkoWicks/BarsTypes/RenkoWicksBarsType.cs:136-186 | the state becomes `BreakUp`: correction, threshold advance, gap fill, wick reset and new brick |
| BarsTypes.RenkoWicksBarsType.GapFillUp | RenkoWicks/BarsTypes/RenkoWicksBarsType.cs:164-175 | the loop leaves exactly `FillUp` of the state it started from, with the offset and last price unchanged |
| BarsTypes.RenkoWicksBarsType.BreakoutDown | RenkoWicks/BarsTypes/RenkoWicksBarsType.cs:190-240 | the state becomes `BreakDown`, the mirror of BreakoutUp |
| BarsTypes.RenkoWicksBarsType.GapFillDown | RenkoWicks/BarsTypes/RenkoWicksBarsType.cs:218-229 | the loop leaves exactly `FillDown` of the state it started from |
| BarsTypes.RenkoWicksBarsType.constructor | RenkoWicks/BarsTypes/RenkoWicksBarsType.cs:16-22 | all five fields start at zero, the field defaults; zero thresholds are what the lazy re-seed tests for |
| RenkoSpec.Step | RenkoWicks/BarsTypes/RenkoWicksBarsType.cs:55-256 | one data point: the offset is the new brick size; the bar count never decreases and the list is never empty afterwards; the last bar closes at the point's close; the close lies strictly between the new thresholds |
| RenkoSpec.Run | RenkoWicks/BarsTypes/RenkoWicksBarsType.cs:55-256 | a stream of points fed one by one: the bar count never decreases; after a non-empty stream the last bar closes at the last point's close, which lies strictly between the thresholds |
| RenkoSpec.Seed | RenkoWicks/BarsTypes/RenkoWicksBarsType.cs:70-96 | exactly one bar more, the last one flat at the close; thresholds two brick sizes apart around the close; both wicks at the close |
| RenkoSpec.Reseed | RenkoWicks/BarsTypes/RenkoWicksBarsType.cs:111-131 | bars, offset and wicks untouched; set thresholds kept; unset ones rebuilt two brick sizes apart with one bar and three with more |
| RenkoSpec.Armed | RenkoWicks/BarsTypes/RenkoWicksBarsType.cs:99-131 | the classifying state: the new offset, the same bars, wicks widened to the point's high and low, set thresholds kept |
| RenkoSpec.UpTarget | RenkoWicks/BarsTypes/RenkoWicksBarsType.cs:139-153 | the closed shape on an upward breakout closes at renkoHigh one brick size above its open, its high and low enclose its open and its high does not pass renkoHigh (with the wick at or above renkoHigh it is a full brick, see UpTargetIsFullBrick); it keeps the old time and volume |
| RenkoSpec.DownTarget | RenkoWicks/BarsTypes/RenkoWicksBarsType.cs:193-207 | the mirror: closes at renkoLow one brick size below its open, its high and low enclose its open and its low does not pass under renkoLow (with the wick at or below renkoLow it is a full brick, see DownTargetIsFullBrick); it keeps the old time and volume |
| RenkoSpec.CorrectLast | RenkoWicks/BarsTypes/RenkoWicksBarsType.cs:145-154 | same length and earlier bars; the last bar afterwards matches the target in open, high and low, and is either the old last bar or the target |
| RenkoSpec.FillUp | RenkoWicks/BarsTypes/RenkoWicksBarsType.cs:164-175 | offset and wicks untouched, bars only added, the loop stops with the close under renkoHigh and keeps renkoLow under the close |
| RenkoSpec.FillDown | RenkoWicks/BarsTypes/RenkoWicksBarsType.cs:218-229 | the mirror: stops with the close over renkoLow and keeps renkoHigh over the close |
| RenkoSpec.BreakUp | RenkoWicks/BarsTypes/RenkoWicksBarsType.cs:136-186 | offset kept, at least one bar added, the last bar closes at the close, both wicks reset to it, and the close lies strictly between the new thresholds |
| RenkoSpec.BreakDown | RenkoWicks/BarsTypes/RenkoWicksBarsType.cs:190-240 | the mirror of BreakUp |
| RenkoSpec.Hold | RenkoWicks/BarsTypes/RenkoWicksBarsType.cs:244-252 | same count and earlier bars; the last bar keeps its open, closes at the close and its high and low enclose its open; thresholds and offset unchanged |
| Data.Bars.AddBar | RenkoWicks/BarsTypes/RenkoWicksBarsType.cs:94 | the bar list grows by exactly the given bar at its end |
| Data.Bars.RemoveLastBar | RenkoWicks/BarsTypes/RenkoWicksBarsType.cs:78 | the bar list loses exactly its last bar |
| Data.Bars.UpdateBar | RenkoWicks/BarsTypes/RenkoWicksBarsType.cs:248-251 | only the last bar changes: its open is kept and its other fields take the given values |
| RenkoProperties.SeedOrReset | RenkoWicks/BarsTypes/RenkoWicksBarsType.cs:70-96 | on the first point or a session reset: exactly one bar more; every earlier bar is kept; the old last bar is flat at its own close, time and volume; the new bar is flat at the close; thresholds are close ± offset; wicks equal the close |
| RenkoProperties.LazyReseed | RenkoWicks/BarsTypes/RenkoWicksBarsType.cs:99-131 | wicks widen to the point's high and low; set thresholds are kept; unset ones are rebuilt two brick sizes apart around the only bar's open, or three apart with the bar before the last one closing one brick inside the band on the side it moved to |
| RenkoProperties.NoBreakout | RenkoWicks/BarsTypes/RenkoWicksBarsType.cs:244-252 | strictly between the thresholds: the bar count, every earlier bar, the open of the last bar and both thresholds are unchanged; the last bar's close, time and volume are the point's; the wicks become exactly the old wicks widened by the point's high and low (lines 100-101), and the last bar's high and low are its open widened by those wicks |
| RenkoProperties.ZeroWicksSurviveReseed | RenkoWicks/BarsTypes/RenkoWicksBarsType.cs:99-131 | a builder whose thresholds and wicks are all still zero, meeting bars of positive prices, keeps its low wick at zero through the re-seed, and a point with no breakout writes the open bar's low as zero |
| RenkoProperties.ZeroWickExample | RenkoWicks/BarsTypes/RenkoWicksBarsType.cs:99-131 | one bar at 1000, brick size 20 and a point at 1005 leave the bar as open 1000, high 1005, low 0, close 1005 |
| RenkoProperties.UpTargetIsFullBrick | RenkoWicks/BarsTypes/RenkoWicksBarsType.cs:139-153 | the corrected shape is one brick size wide ending at renkoHigh; its upper wick is clamped to the close; its lower wick reaches the lowest low; the old time and volume are kept |
| RenkoProperties.DownTargetIsFullBrick | RenkoWicks/BarsTypes/RenkoWicksBarsType.cs:193-207 | the mirror for a downward breakout, with the lower wick clamped to renkoLow |
| RenkoProperties.UpwardCorrection | RenkoWicks/BarsTypes/RenkoWicksBarsType.cs:136-154 | on an upward breakout, every earlier bar is kept; the open bar is left as it was when open, high and low already match the target, and is the target otherwise |
| RenkoProperties.DownwardCorrection | RenkoWicks/BarsTypes/RenkoWicksBarsType.cs:190-208 | the mirror for a downward breakout |
| RenkoProperties.UpwardThresholds | RenkoWicks/BarsTypes/RenkoWicksBarsType.cs:156-175 | after an upward breakout, the thresholds are three brick sizes apart; renkoHigh moved up by one brick per brick size travelled plus one; the close lies in the top brick below renkoHigh |
| RenkoProperties.DownwardThresholds | RenkoWicks/BarsTypes/RenkoWicksBarsType.cs:210-229 | the mirror after a downward breakout |
| RenkoProperties.UpwardGapFill | RenkoWicks/BarsTypes/RenkoWicksBarsType.cs:164-175 | an upward breakout adds exactly (close − renkoHigh) / offset zero-volume bricks plus the new brick; the first fill opens at the old renkoHigh; each fill is a full up brick at the point's time; each opens at the previous close |
| RenkoProperties.DownwardGapFill | RenkoWicks/BarsTypes/RenkoWicksBarsType.cs:218-229 | the mirror for a downward breakout |
| RenkoProperties.UpwardNewBrick | RenkoWicks/BarsTypes/RenkoWicksBarsType.cs:177-185 | the new open brick opens one brick below the final renkoHigh, at or below the close; its high is the close and its low its open; it carries the point's time and volume; both wicks equal the close; when the corrected bar was rewritten or a fill was added, it opens where the bar before it closed |
| RenkoProperties.DownwardNewBrick | RenkoWicks/BarsTypes/RenkoWicksBarsType.cs:231-239 | the mirror for a downward breakout |
| RenkoProperties.BreakUpShape | RenkoWicks/BarsTypes/RenkoWicksBarsType.cs:136-186 | after an upward breakout: the corrected prefix, the count (close − renkoHigh) / offset + 1 of added bars, the first opening at the old renkoHigh, and the final thresholds in closed form |
| RenkoProperties.BreakUpBricks | RenkoWicks/BarsTypes/RenkoWicksBarsType.cs:164-185 | after an upward breakout: every fill is a full up brick, each added bar opens at the previous close, and the last bar is the new open brick |
| RenkoProperties.BreakDownShape | RenkoWicks/BarsTypes/RenkoWicksBarsType.cs:190-240 | the same frame for a downward breakout |
| RenkoProperties.BreakDownBricks | RenkoWicks/BarsTypes/RenkoWicksBarsType.cs:218-239 | the mirror of BreakUpBricks |
| RenkoProperties.FillUpShape | RenkoWicks/BarsTypes/RenkoWicksBarsType.cs:164-175 | the loop keeps every bar before it, moves renkoHigh up one brick size per appended bar and stops with the close inside the top brick; zero iterations leave the state untouched |
| RenkoProperties.FillDownShape | RenkoWicks/BarsTypes/RenkoWicksBarsType.cs:218-229 | the mirror of FillUpShape |
| RenkoProperties.FillUpEnd | RenkoWicks/BarsTypes/RenkoWicksBarsType.cs:165-175 | when the loop appends anything, it stops with the thresholds three brick sizes apart and its last brick closing one brick below renkoHigh |
| RenkoProperties.FillDownEnd | RenkoWicks/BarsTypes/RenkoWicksBarsType.cs:219-229 | the mirror of FillUpEnd |
| RenkoProperties.FillUpBricks | RenkoWicks/BarsTypes/RenkoWicksBarsType.cs:165-175 | every appended bar is a full up brick with no volume at the point's time; the first opens one brick below the starting renkoHigh and each opens where the previous closed |
| RenkoProperties.FillDownBricks | RenkoWicks/BarsTypes/RenkoWicksBarsType.cs:219-229 | the mirror of FillUpBricks |
| RenkoProperties.ReseedRecoversUp | RenkoWicks/BarsTypes/RenkoWicksBarsType.cs:119-124 | after an upward breakout whose last closed brick closed at the breakout level, re-seeding from a zeroed threshold gives back exactly the thresholds the breakout left |
| RenkoProperties.ReseedRecoversDown | RenkoWicks/BarsTypes/RenkoWicksBarsType.cs:125-130 | the mirror after a downward breakout |
| RenkoProperties.OnlyLastBarChanges | RenkoWicks/BarsTypes/RenkoWicksBarsType.cs:70-252 | for every data point, the bar count never decreases, the list is not empty afterwards, and every bar before the old last bar is unchanged |
| RenkoProperties.ContainmentPreserved | RenkoWicks/BarsTypes/RenkoWicksBarsType.cs:99-252 | for a well-formed point, if every bar's high and low enclose its open and close, they still do afterwards, for corrected, fill and new bricks alike |
| RenkoProperties.GapPreserved | RenkoWicks/BarsTypes/RenkoWicksBarsType.cs:82-229 | at a fixed brick size, the thresholds stay two or three brick sizes apart from one point to the next |
| RenkoProperties.RunKeepsInvariant | RenkoWicks/BarsTypes/RenkoWicksBarsType.cs:55-256 | over a stream of well-formed points: containment and the threshold gap hold throughout, bars are only added, and no bar before the first state's last one changes |
| RenkoProperties.FromEmpty | RenkoWicks/BarsTypes/RenkoWicksBarsType.cs:55-256 | from a fresh builder, every stream leaves every bar's wicks enclosing its body and the thresholds two or three brick sizes apart |
| BrickCloseFinding.StaleCloseCounterexample | RenkoWicks/BarsTypes/RenkoWicksBarsType.cs:145-147 | a concrete four-point stream after which a closed brick has zero width and the next brick opens one tick above its close |
| BrickCloseFinding.ReversedBodyCounterexample | RenkoWicks/BarsTypes/RenkoWicksBarsType.cs:145-147 | a concrete four-point stream of well-formed points, brick size two, after which the brick closed by an upward breakout runs downwards, is one and a half brick sizes long, and the next brick does not open at its close |
| BrickCloseFinding.CorrectLastFixed | RenkoWicks/BarsTypes/RenkoWicksBarsType.cs:145-153 | with the close compared too, the open bar always ends up exactly the target shape; earlier bars are kept |
| BrickCloseFinding.FixedUpwardBrick | RenkoWicks/BarsTypes/RenkoWicksBarsType.cs:136-186 | with the corrected test, an upward breakout always closes a brick one brick size wide at renkoHigh, and the next bar opens at its close |
| BrickCloseFinding.FixedDownwardBrick | RenkoWicks/BarsTypes/RenkoWicksBarsType.cs:190-240 | the mirror for a downward breakout |

## Left out

- The session iterator is a per-point boolean `newSession`. Creating it, `GetNextSession` and the second `IsNewSession` check inside each breakout branch (lines 161-162, 215-216) only advance the host's calendar. They do not change bars or fields.
- `ApproxCompare` tolerance: prices are exact whole numbers of the smallest price unit, so comparisons are exact.
- The parameters `open`, `bid` and `ask` of `OnDataPoint` are unused by it and are left out. `isBar` only reaches the session iterator (lines 65, 67, 91, 161-162, 215-216), which the `newSession` boolean replaces.
- Data.Bars.UpdateBar: writes the given volume. Any accumulation the host performs inside its own `UpdateBar` is host code and is not part of this model.
- `ApplyDefaultBasePeriodValue` (empty), `ChartLabel` (date formatting), `GetInitialLookBackDays` (constant 3), `GetPercentComplete` (constant 0), `IsRemoveLastBarSupported` and `OnStateChange` (host registration and display settings): configuration and UI with no bar logic.
- The indicators (EMA, ATR, MACD, volume colouring) and the chart style in the other directories: they consume the bar stream and are outside the builder.
- BarsTypes.RenkoWicksBarsType.OnDataPoint: requires a positive brick size and tick size. The host validates these at setup, and with a zero offset the source's gap-fill loop would not end.
- Floating-point prices and `DateTime` timestamps become integers.

## Findings

| source | as written | input that shows it | evidently intended | confidence | as-written member | corrected member |
|---|---|---|---|---|---|---|
| RenkoWicks/BarsTypes/RenkoWicksBarsType.cs:145-147 (and 199-201) | the breakout correction rewrites the open bar only when its open, high or low differ from the closed shape; a bar matching on those keeps its old close | brick size 1, no reset: points (high, low, close) = (100,100,100), (101,101,101), (102,101,101), (102,102,102); the second bar ends as open 101, close 101, and the third opens at 102. With brick size 2, points (100,100,100), (102,102,102), (104,99,99), (104,104,104) leave the second bar as open 102, close 99: reversed and one and a half brick sizes long (BrickCloseFinding.ReversedBodyCounterexample). It needs a point whose high reaches renkoHigh while its close stays below it (or the low mirror), or a re-seed from a zero threshold; when every point has high = low = close, as single ticks do, the open bar's high stays below renkoHigh until a breakout and the open/high/low test always rewrites the bar | the closed brick ends at the breakout level, one brick size from its open, and the next brick opens there | medium: needs points that carry a range, not executed | BrickCloseFinding.StaleCloseCounterexample | BrickCloseFinding.CorrectLastFixed |

`OnDataPoint` and `Step` keep the comparison as the code writes it.
`BrickCloseFinding.StepFixed` is the same step, with `CorrectLastFixed` applied before each breakout.

=== FILE: bars.dfy ===
/** The host's bar series as the Renko builder sees it.
    Prices are whole numbers of one fixed smallest price unit, so the host's
    tolerance-based comparisons become exact comparisons; the tick size is a
    positive whole number of that unit. */
module Data {

  /** One bar of the series. */
  datatype Bar = Bar(open: int, high: int, low: int, close: int, time: int, volume: int)

  function Max(a: int, b: int): (r: int) { if a >= b then a else b }
  function Min(a: int, b: int): (r: int) { if a <= b then a else b }

  /** A bar whose open, high, low and close all equal `price`. */
  function Flat(price: int, time: int, volume: int): (r: Bar) {
    Bar(price, price, price, price, time, volume)
  }

  /** The configured brick size, in ticks of the instrument. */
  class BarsPeriod {
    var value: int

    constructor (value: int)
      ensures this.value == value
    {
      this.value := value;
    }
  }

  /** The bar list the builder writes. Only its last element is ever changed,
      and only through AddBar, RemoveLastBar and UpdateBar. */
  class Bars {
    var items: seq<Bar>
    var lastPrice: int
    const barsPeriod: BarsPeriod
    /** The instrument's tick size, in the smallest price unit. */
    const tickSize: int
    const isResetOnNewTradingDay: bool

    constructor (period: BarsPeriod, tickSize: int, resetOnNewTradingDay: bool)
      ensures items == [] && barsPeriod == period
      ensures this.tickSize == tickSize && isResetOnNewTradingDay == resetOnNewTradingDay
    {
      items := [];
      lastPrice := 0;
      barsPeriod := period;
      this.tickSize := tickSize;
      isResetOnNewTradingDay := resetOnNewTradingDay;
    }

    /** Appends a bar. */
    method AddBar(open: int, high: int, low: int, close: int, time: int, volume: int)
      modifies this
      ensures items == old(items) + [Bar(open, high, low, close, time, volume)]
      ensures lastPrice == old(lastPrice)
    {
      items := items + [Bar(open, high, low, close, time, volume)];
    }

    /** Drops the last bar. */
    method RemoveLastBar()
      requires items != []
      modifies this
      ensures items == old(items)[..|old(items)| - 1]
      ensures lastPrice == old(lastPrice)
    {
      items := items[..|items| - 1];
    }

    /** Rewrites the last bar, keeping its open. */
    method UpdateBar(high: int, low: int, close: int, time: int, volume: int)
      requires items != []
      modifies this
      ensures |items| == |old(items)|
      ensures items[..|items| - 1] == old(items)[..|items| - 1]
      ensures items[|items| - 1] == Bar(old(items)[|items| - 1].open, high, low, close, time, volume)
      ensures lastPrice == old(lastPrice)
    {
      var last := items[|items| - 1];
      items := items[..|items| - 1] + [Bar(last.open, high, low, close, time, volume)];
    }
  }
}

=== FILE: brick_close_finding.dfy ===
/** The breakout correction decides whether the open bar already has its
    closed shape by comparing open, high and low only. A bar that matches on
    those three but closed below (or above) the breakout level is kept with
    its stale close, so the brick it represents is not one brick size wide
    and the next brick does not open where it closed. This module shows such
    an input and gives the comparison that also checks the close. */
module BrickCloseFinding {
  import opened Data
  import opened RenkoSpec
  import opened RenkoProperties

  /** The correction test with the close compared as well. */
  predicate SameBar(b: Bar, target: Bar) {
    b.open == target.open && b.high == target.high && b.low == target.low && b.close == target.close
  }

  /** The last bar is replaced by `target` unless it already equals it in
      open, high, low and close. */
  function CorrectLastFixed(bars: seq<Bar>, target: Bar): (r: seq<Bar>)
    requires bars != []
    ensures |r| == |bars| && r[..|bars| - 1] == bars[..|bars| - 1]
    ensures target.time == Last(bars).time && target.volume == Last(bars).volume ==> r == ReplaceLast(bars, target)
  {
    if SameBar(Last(bars), target) then
      assert bars == ReplaceLast(bars, Last(bars));
      bars
    else ReplaceLast(bars, target)
  }

  /** One data point with the full correction applied before the breakout:
      the breakout's own open/high/low test then finds nothing to change. */
  function StepFixed(s: Series, offset: int, resetOnNewTradingDay: bool, newSession: bool, t: Tick): (r: Series)
    requires offset > 0
  {
    if Starts(s.bars, resetOnNewTradingDay, newSession) then Seed(s, offset, t.close, t.time, t.volume)
    else
      var a := Armed(s, offset, t);
      if t.close >= a.renkoHigh then
        BreakUp(a.(bars := CorrectLastFixed(a.bars, UpTarget(a))), t.close, t.time, t.volume)
      else if t.close <= a.renkoLow then
        BreakDown(a.(bars := CorrectLastFixed(a.bars, DownTarget(a))), t.close, t.time, t.volume)
      else Hold(a, t.close, t.time, t.volume)
  }

  /** Four data points with a brick size of one: a flat first bar at 100, an
      upward breakout at 101, a point that touches 102 but closes at 101, and
      a close at 102. The open/high/low test keeps the third point's bar, so
      the brick closed by the fourth point opens and closes at 101 and the
      next brick opens at 102. */
  const P0 := Input(Tick(100, 100, 100, 0, 1), false)
  const P1 := Input(Tick(101, 101, 101, 1, 1), false)
  const P2 := Input(Tick(102, 101, 101, 2, 1), false)
  const P3 := Input(Tick(102, 102, 102, 3, 1), false)
  const Points := [P0, P1, P2, P3]

  /** The states after each of the four points. */
  const After1 := Series(1, 101, 99, 100, 100, [Flat(100, 0, 1)])
  const After2 := Series(1, 102, 99, 101, 101, [Bar(100, 101, 100, 101, 0, 1), Flat(101, 1, 1)])
  const After3 := Series(1, 102, 99, 102, 101, [Bar(100, 101, 100, 101, 0, 1), Bar(101, 102, 101, 101, 2, 1)])
  const After4Bars := [Bar(100, 101, 100, 101, 0, 1), Bar(101, 102, 101, 101, 2, 1), Bar(102, 102, 102, 102, 3, 1)]

  lemma FirstPoint()
    ensures Step(Empty, 1, false, false, P0.tick) == After1
  {
  }

  lemma SecondPoint()
    ensures Step(After1, 1, false, false, P1.tick) == After2
  {
    var a := Armed(After1, 1, P1.tick);
    assert a == After1.(wickHigh := 101);
    assert UpTarget(a) == Bar(100, 101, 100, 101, 0, 1);
    var advanced := a.(bars := [Bar(100, 101, 100, 101, 0, 1)], renkoLow := 99, renkoHigh := 102);
    assert FillUp(advanced, 101, 1) == advanced;
  }

  lemma ThirdPoint()
    ensures Step(After2, 1, false, false, P2.tick) == After3
  {
    assert Armed(After2, 1, P2.tick) == After2.(wickHigh := 102);
  }

  /** The fourth point breaks out upwards, but the open bar already has the
      target's open, high and low, so its close of 101 is kept. */
  lemma FourthPoint()
    ensures Step(After3, 1, false, false, P3.tick).bars == After4Bars
  {
    var a := Armed(After3, 1, P3.tick);
    assert a == After3;
    assert UpTarget(a) == Bar(101, 102, 101, 102, 2, 1);
    assert CorrectLast(a.bars, UpTarget(a)) == a.bars;
    var advanced := a.(renkoLow := 100, renkoHigh := 103);
    assert FillUp(advanced, 102, 3) == advanced;
  }

  lemma StaleCloseCounterexample()
    ensures var r := Run(Empty, 1, false, Points);
      && r.bars == After4Bars
      && r.bars[1].close - r.bars[1].open != 1
      && r.bars[2].open != r.bars[1].close
  {
    FirstPoint();
    SecondPoint();
    ThirdPoint();
    FourthPoint();
    assert Points[1..] == [P1, P2, P3];
    assert [P1, P2, P3][1..] == [P2, P3];
    assert [P2, P3][1..] == [P3];
    assert [P3][1..] == [];
    assert Run(Empty, 1, false, Points) == Run(After1, 1, false, [P1, P2, P3]);
    assert Run(After1, 1, false, [P1, P2, P3]) == Run(After2, 1, false, [P2, P3]);
    assert Run(After2, 1, false, [P2, P3]) == Run(After3, 1, false, [P3]);
    assert Run(After3, 1, false, [P3]) == Step(After3, 1, false, false, P3.tick);
  }

  /** A second run, with a brick size of two and points that carry a range:
      flat at 100, an upward breakout at 102, a point spanning 99 to 104 that
      closes at 99, and a close at 104. The third point's bar already has the
      target's open, high and low, so the brick closed by the fourth point
      keeps the close 99: its body is reversed and one and a half brick sizes
      long, and the next brick opens at 104. */
  const Q0 := Input(Tick(100, 100, 100, 0, 1), false)
  const Q1 := Input(Tick(102, 102, 102, 1, 1), false)
  const Q2 := Input(Tick(104, 99, 99, 2, 1), false)
  const Q3 := Input(Tick(104, 104, 104, 3, 1), false)
  const RangePoints := [Q0, Q1, Q2, Q3]

  /** The states after each of these four points. */
  const Range1 := Series(2, 102, 98, 100, 100, [Flat(100, 0, 1)])
  const Range2 := Series(2, 104, 98, 102, 102, [Bar(100, 102, 100, 102, 0, 1), Flat(102, 1, 1)])
  const Range3 := Series(2, 104, 98, 104, 99, [Bar(100, 102, 100, 102, 0, 1), Bar(102, 104, 99, 99, 2, 1)])
  const Range4Bars := [Bar(100, 102, 100, 102, 0, 1), Bar(102, 104, 99, 99, 2, 1), Flat(104, 3, 1)]

  lemma RangeFirstPoint()
    ensures Step(Empty, 2, false, false, Q0.tick) == Range1
  {
  }

  lemma RangeSecondPoint()
    ensures Step(Range1, 2, false, false, Q1.tick) == Range2
  {
    var a := Armed(Range1, 2, Q1.tick);
    assert a == Range1.(wickHigh := 102);
    assert UpTarget(a) == Bar(100, 102, 100, 102, 0, 1);
    var advanced := a.(bars := [Bar(100, 102, 100, 102, 0, 1)], renkoLow := 98, renkoHigh := 104);
    assert FillUp(advanced, 102, 1) == advanced;
  }

  lemma RangeThirdPoint()
    ensures Step(Range2, 2, false, false, Q2.tick) == Range3
  {
    assert Armed(Range2, 2, Q2.tick) == Range2.(wickHigh := 104, wickLow := 99);
  }

  /** The fourth point breaks out upwards; the open bar already has the
      target's open, high and low, so its close of 99 is kept. */
  lemma RangeFourthPoint()
    ensures Step(Range3, 2, false, false, Q3.tick).bars == Range4Bars
  {
    var a := Armed(Range3, 2, Q3.tick);
    assert a == Range3;
    assert UpTarget(a) == Bar(102, 104, 99, 104, 2, 1);
    assert CorrectLast(a.bars, UpTarget(a)) == a.bars;
    var advanced := a.(renkoLow := 100, renkoHigh := 106);
    assert FillUp(advanced, 104, 3) == advanced;
  }

  /** The kept close can lie anywhere strictly between the thresholds: here
      the closed brick runs downwards although the breakout was upwards, and
      its body is wider than one brick size. */
  lemma ReversedBodyCounterexample()
    ensures var r := Run(Empty, 2, false, RangePoints);
      && r.bars == Range4Bars
      && r.bars[1].close < r.bars[1].open
      && r.bars[1].open - r.bars[1].close > 2
      && r.bars[2].open != r.bars[1].close
  {
    RangeFirstPoint();
    RangeSecondPoint();
    RangeThirdPoint();
    RangeFourthPoint();
    assert RangePoints[1..] == [Q1, Q2, Q3];
    assert [Q1, Q2, Q3][1..] == [Q2, Q3];
    assert [Q2, Q3][1..] == [Q3];
    assert [Q3][1..] == [];
    assert Run(Empty, 2, false, RangePoints) == Run(Range1, 2, false, [Q1, Q2, Q3]);
    assert Run(Range1, 2, false, [Q1, Q2, Q3]) == Run(Range2, 2, false, [Q2, Q3]);
    assert Run(Range2, 2, false, [Q2, Q3]) == Run(Range3, 2, false, [Q3]);
    assert Run(Range3, 2, false, [Q3]) == Step(Range3, 2, false, false, Q3.tick);
  }

  lemma FixedBreakUp(a: Series, close: int, time: int, volume: int)
    requires a.offset > 0 && a.bars != [] && close >= a.renkoHigh
    ensures var r := BreakUp(a.(bars := CorrectLastFixed(a.bars, UpTarget(a))), close, time, volume);
      && |r.bars| > |a.bars|
      && r.bars[|a.bars| - 1] == UpTarget(a)
      && r.bars[|a.bars|].open == a.renkoHigh
  {
    var c := a.(bars := CorrectLastFixed(a.bars, UpTarget(a)));
    assert Last(c.bars) == UpTarget(a);
    assert UpTarget(c) == UpTarget(a);
    assert CorrectLast(c.bars, UpTarget(c)) == c.bars;
    BreakUpShape(c, close, time, volume);
    var r := BreakUp(c, close, time, volume);
    assert r.bars[|a.bars| - 1] == r.bars[..|c.bars|][|c.bars| - 1];
  }

  /** With the full comparison, an upward breakout closes the open bar as a
      brick exactly one brick size wide ending at the breakout level, and the
      next bar opens where it closed. */
  lemma FixedUpwardBrick(s: Series, offset: int, reset: bool, newSession: bool, t: Tick)
    requires offset > 0 && !Starts(s.bars, reset, newSession)
    requires t.close >= Armed(s, offset, t).renkoHigh
    ensures var a, r := Armed(s, offset, t), StepFixed(s, offset, reset, newSession, t);
      && |r.bars| > |s.bars|
      && r.bars[|s.bars| - 1] == UpTarget(a)
      && r.bars[|s.bars| - 1].close == a.renkoHigh
      && r.bars[|s.bars| - 1].close - r.bars[|s.bars| - 1].open == offset
      && r.bars[|s.bars|].open == r.bars[|s.bars| - 1].close
  {
    var a := Armed(s, offset, t);
    assert StepFixed(s, offset, reset, newSession, t) == BreakUp(a.(bars := CorrectLastFixed(a.bars, UpTarget(a))), t.close, t.time, t.volume);
    FixedBreakUp(a, t.close, t.time, t.volume);
  }

  lemma FixedBreakDown(a: Series, close: int, time: int, volume: int)
    requires a.offset > 0 && a.bars != [] && close <= a.renkoLow
    ensures var r := BreakDown(a.(bars := CorrectLastFixed(a.bars, DownTarget(a))), close, time, volume);
      && |r.bars| > |a.bars|
      && r.bars[|a.bars| - 1] == DownTarget(a)
      && r.bars[|a.bars|].open == a.renkoLow
  {
    var c := a.(bars := CorrectLastFixed(a.bars, DownTarget(a)));
    assert Last(c.bars) == DownTarget(a);
    assert DownTarget(c) == DownTarget(a);
    assert CorrectLast(c.bars, DownTarget(c)) == c.bars;
    BreakDownShape(c, close, time, volume);
    var r := BreakDown(c, close, time, volume);
    assert r.bars[|a.bars| - 1] == r.bars[..|c.bars|][|c.bars| - 1];
  }

  /** The downward counterpart of FixedUpwardBrick. */
  lemma FixedDownwardBrick(s: Series, offset: int, reset: bool, newSession: bool, t: Tick)
    requires offset > 0 && !Starts(s.bars, reset, newSession)
    requires t.close < Armed(s, offset, t).renkoHigh && t.close <= Armed(s, offset, t).renkoLow
    ensures var a, r := Armed(s, offset, t), StepFixed(s, offset, reset, newSession, t);
      && |r.bars| > |s.bars|
      && r.bars[|s.bars| - 1] == DownTarget(a)
      && r.bars[|s.bars| - 1].close == a.renkoLow
      && r.bars[|s.bars| - 1].open - r.bars[|s.bars| - 1].close == offset
      && r.bars[|s.bars|].open == r.bars[|s.bars| - 1].close
  {
    var a := Armed(s, offset, t);
    assert StepFixed(s, offset, reset, newSession, t) == BreakDown(a.(bars := CorrectLastFixed(a.bars, DownTarget(a))), t.close, t.time, t.volume);
    FixedBreakDown(a, t.close, t.time, t.volume);
  }
}

=== FILE: renko_properties.dfy ===
/** What one data point, and a stream of them, does to the bar list and to
    the thresholds, proved about the functions in RenkoSpec. */
module RenkoProperties {
  import opened Data
  import opened RenkoSpec

  /** A gap-fill brick going up from `open`: a full body, no wicks, no volume. */
  function EmptyUpBrick(open: int, offset: int, time: int): (r: Bar) {
    Bar(open, open + offset, open, open + offset, time, 0)
  }

  /** A gap-fill brick going down from `open`. */
  function EmptyDownBrick(open: int, offset: int, time: int): (r: Bar) {
    Bar(open, open, open - offset, open - offset, time, 0)
  }

  /** High and low enclose both open and close. */
  predicate Contained(b: Bar) {
    b.low <= b.open <= b.high && b.low <= b.close <= b.high
  }

  predicate AllContained(bars: seq<Bar>) {
    forall i :: 0 <= i < |bars| ==> Contained(bars[i])
  }

  /** A data point whose close lies between its low and its high. */
  predicate WellFormed(t: Tick) {
    t.low <= t.close <= t.high
  }

  /** The thresholds are two brick sizes apart (after a seed or a re-seed
      from one bar) or three (after a breakout or a re-seed from a
      direction). */
  predicate GapOk(s: Series) {
    s.renkoHigh - s.renkoLow == 2 * s.offset || s.renkoHigh - s.renkoLow == 3 * s.offset
  }

  /** Integer division is pinned down by the bracket it satisfies. */
  lemma DivBracket(a: int, b: int, m: int)
    requires b > 0 && 0 <= m && m * b <= a < m * b + b
    ensures a / b == m
  {
    var q, r := a / b, a % b;
    assert a == q * b + r && 0 <= r < b;
    if q < m {
      assert (q + 1) * b <= m * b by { MulMonotone(q + 1, m, b); }
    } else if q > m {
      assert (m + 1) * b <= q * b by { MulMonotone(m + 1, q, b); }
    }
  }

  lemma MulMonotone(x: int, y: int, b: int)
    requires x <= y && b > 0
    ensures x * b <= y * b
  {
    assert y * b - x * b == (y - x) * b;
  }

  /** The upward gap-fill loop keeps every bar before it, appends m bars,
      moves renkoHigh up by m brick sizes and stops with the close in the
      brick below the new renkoHigh. */
  lemma {:induction false} FillUpShape(s: Series, close: int, time: int)
    requires s.offset > 0 && s.renkoHigh - s.offset <= close
    ensures var r := FillUp(s, close, time);
      && r.offset == s.offset && r.wickHigh == s.wickHigh && r.wickLow == s.wickLow
      && |r.bars| >= |s.bars| && r.bars[..|s.bars|] == s.bars
      && r.renkoHigh == s.renkoHigh + (|r.bars| - |s.bars|) * s.offset
      && r.renkoHigh - s.offset <= close < r.renkoHigh
      && (|r.bars| == |s.bars| ==> r == s)
    decreases close - s.renkoHigh
  {
    if close >= s.renkoHigh {
      var o := s.renkoHigh - s.offset;
      var b := Bar(o, Max(o, s.renkoHigh), Min(o, s.renkoHigh), s.renkoHigh, time, 0);
      var next := s.(bars := s.bars + [b], renkoLow := s.renkoHigh - 2 * s.offset,
                     renkoHigh := s.renkoHigh + s.offset);
      FillUpShape(next, close, time);
      var r := FillUp(s, close, time);
      assert r == FillUp(next, close, time);
      var k := |r.bars| - |next.bars|;
      assert (k + 1) * s.offset == k * s.offset + s.offset;
      assert r.bars[..|next.bars|] == next.bars;
      assert r.bars[..|s.bars|] == next.bars[..|s.bars|] == s.bars;
      assert r.bars[|s.bars|] == b;
    }
  }

  /** When the upward gap-fill loop appends anything, it stops with the
      thresholds three brick sizes apart and its last brick closing one brick
      inside them. */
  lemma {:induction false} FillUpEnd(s: Series, close: int, time: int)
    requires s.offset > 0 && s.renkoHigh - s.offset <= close
    ensures var r := FillUp(s, close, time);
      |r.bars| > |s.bars| ==> r.renkoLow == r.renkoHigh - 3 * s.offset && Last(r.bars).close == r.renkoHigh - s.offset
    decreases close - s.renkoHigh
  {
    if close >= s.renkoHigh {
      var o := s.renkoHigh - s.offset;
      var b := Bar(o, Max(o, s.renkoHigh), Min(o, s.renkoHigh), s.renkoHigh, time, 0);
      var next := s.(bars := s.bars + [b], renkoLow := s.renkoHigh - 2 * s.offset,
                     renkoHigh := s.renkoHigh + s.offset);
      FillUpShape(next, close, time);
      FillUpEnd(next, close, time);
      assert FillUp(s, close, time) == FillUp(next, close, time);
    }
  }

  /** The bars the upward gap-fill loop appends are full up bricks at the
      point's time with no volume, the first opening at renkoHigh - offset
      and each opening at the previous one's close. */
  lemma {:induction false} FillUpBricks(s: Series, close: int, time: int)
    requires s.offset > 0 && s.renkoHigh - s.offset <= close
    ensures var r := FillUp(s, close, time);
      && |r.bars| >= |s.bars| && r.bars[..|s.bars|] == s.bars
      && (|r.bars| > |s.bars| ==> r.bars[|s.bars|].open == s.renkoHigh - s.offset)
      && (forall j :: |s.bars| <= j < |r.bars| ==> r.bars[j] == EmptyUpBrick(r.bars[j].open, s.offset, time))
      && (forall j :: |s.bars| < j < |r.bars| ==> r.bars[j].open == r.bars[j - 1].close)
    decreases close - s.renkoHigh
  {
    if close >= s.renkoHigh {
      var o := s.renkoHigh - s.offset;
      var b := Bar(o, Max(o, s.renkoHigh), Min(o, s.renkoHigh), s.renkoHigh, time, 0);
      var next := s.(bars := s.bars + [b], renkoLow := s.renkoHigh - 2 * s.offset,
                     renkoHigh := s.renkoHigh + s.offset);
      FillUpBricks(next, close, time);
      var r := FillUp(s, close, time);
      assert r == FillUp(next, close, time);
      assert r.bars[..|next.bars|] == next.bars;
      assert r.bars[..|s.bars|] == next.bars[..|s.bars|] == s.bars;
      assert r.bars[|s.bars|] == b;
    }
  }

  /** The downward gap-fill loop, mirroring FillUpShape. */
  lemma {:induction false} FillDownShape(s: Series, close: int, time: int)
    requires s.offset > 0 && close <= s.renkoLow + s.offset
    ensures var r := FillDown(s, close, time);
      && r.offset == s.offset && r.wickHigh == s.wickHigh && r.wickLow == s.wickLow
      && |r.bars| >= |s.bars| && r.bars[..|s.bars|] == s.bars
      && r.renkoLow == s.renkoLow - (|r.bars| - |s.bars|) * s.offset
      && r.renkoLow < close <= r.renkoLow + s.offset
      && (|r.bars| == |s.bars| ==> r == s)
    decreases s.renkoLow - close
  {
    if close <= s.renkoLow {
      var o := s.renkoLow + s.offset;
      var b := Bar(o, Max(o, s.renkoLow), Min(o, s.renkoLow), s.renkoLow, time, 0);
      var next := s.(bars := s.bars + [b], renkoHigh := s.renkoLow + 2 * s.offset,
                     renkoLow := s.renkoLow - s.offset);
      FillDownShape(next, close, time);
      var r := FillDown(s, close, time);
      assert r == FillDown(next, close, time);
      var k := |r.bars| - |next.bars|;
      assert (k + 1) * s.offset == k * s.offset + s.offset;
      assert r.bars[..|next.bars|] == next.bars;
      assert r.bars[..|s.bars|] == next.bars[..|s.bars|] == s.bars;
      assert r.bars[|s.bars|] == b;
    }
  }

  /** When the downward gap-fill loop appends anything, it stops with the
      thresholds three brick sizes apart and its last brick closing one brick
      inside them. */
  lemma {:induction false} FillDownEnd(s: Series, close: int, time: int)
    requires s.offset > 0 && close <= s.renkoLow + s.offset
    ensures var r := FillDown(s, close, time);
      |r.bars| > |s.bars| ==> r.renkoHigh == r.renkoLow + 3 * s.offset && Last(r.bars).close == r.renkoLow + s.offset
    decreases s.renkoLow - close
  {
    if close <= s.renkoLow {
      var o := s.renkoLow + s.offset;
      var b := Bar(o, Max(o, s.renkoLow), Min(o, s.renkoLow), s.renkoLow, time, 0);
      var next := s.(bars := s.bars + [b], renkoHigh := s.renkoLow + 2 * s.offset,
                     renkoLow := s.renkoLow - s.offset);
      FillDownShape(next, close, time);
      FillDownEnd(next, close, time);
      assert FillDown(s, close, time) == FillDown(next, close, time);
    }
  }

  /** The bars the downward gap-fill loop appends, mirroring FillUpBricks. */
  lemma {:induction false} FillDownBricks(s: Series, close: int, time: int)
    requires s.offset > 0 && close <= s.renkoLow + s.offset
    ensures var r := FillDown(s, close, time);
      && |r.bars| >= |s.bars| && r.bars[..|s.bars|] == s.bars
      && (|r.bars| > |s.bars| ==> r.bars[|s.bars|].open == s.renkoLow + s.offset)
      && (forall j :: |s.bars| <= j < |r.bars| ==> r.bars[j] == EmptyDownBrick(r.bars[j].open, s.offset, time))
      && (forall j :: |s.bars| < j < |r.bars| ==> r.bars[j].open == r.bars[j - 1].close)
    decreases s.renkoLow - close
  {
    if close <= s.renkoLow {
      var o := s.renkoLow + s.offset;
      var b := Bar(o, Max(o, s.renkoLow), Min(o, s.renkoLow), s.renkoLow, time, 0);
      var next := s.(bars := s.bars + [b], renkoHigh := s.renkoLow + 2 * s.offset,
                     renkoLow := s.renkoLow - s.offset);
      FillDownBricks(next, close, time);
      var r := FillDown(s, close, time);
      assert r == FillDown(next, close, time);
      assert r.bars[..|next.bars|] == next.bars;
      assert r.bars[..|s.bars|] == next.bars[..|s.bars|] == s.bars;
      assert r.bars[|s.bars|] == b;
    }
  }

  /** First bar or session reset: exactly one bar is added, flat at the
      close; an earlier last bar is flattened at its own close, keeping its
      time and volume; the thresholds are centred on the close. */
  lemma SeedOrReset(s: Series, offset: int, reset: bool, newSession: bool, t: Tick)
    requires offset > 0 && Starts(s.bars, reset, newSession)
    ensures var r := Step(s, offset, reset, newSession, t);
      && |r.bars| == |s.bars| + 1
      && (s.bars != [] ==>
            r.bars[..|s.bars| - 1] == s.bars[..|s.bars| - 1] &&
            r.bars[|s.bars| - 1] == Flat(Last(s.bars).close, Last(s.bars).time, Last(s.bars).volume))
      && Last(r.bars) == Flat(t.close, t.time, t.volume)
      && r.offset == offset
      && r.renkoHigh == t.close + offset && r.renkoLow == t.close - offset
      && r.wickHigh == t.close && r.wickLow == t.close
  {
  }

  /** No breakout: the bar count, the open of the last bar and the
      thresholds stay; the wicks become the old wicks widened by the point's
      high and low, and the last bar takes them and the close. */
  lemma NoBreakout(s: Series, offset: int, reset: bool, newSession: bool, t: Tick)
    requires offset > 0 && !Starts(s.bars, reset, newSession)
    requires Armed(s, offset, t).renkoLow < t.close < Armed(s, offset, t).renkoHigh
    ensures var a, r := Armed(s, offset, t), Step(s, offset, reset, newSession, t);
      var o := Last(s.bars).open;
      && |r.bars| == |s.bars|
      && r.bars[..|s.bars| - 1] == s.bars[..|s.bars| - 1]
      && Last(r.bars) == Bar(o, Max(o, r.wickHigh), Min(o, r.wickLow), t.close, t.time, t.volume)
      && r.renkoHigh == a.renkoHigh && r.renkoLow == a.renkoLow
      && r.wickHigh == Max(s.wickHigh, t.high) && r.wickLow == Min(s.wickLow, t.low)
      && r.wickHigh >= s.wickHigh && r.wickHigh >= t.high
      && r.wickLow <= s.wickLow && r.wickLow <= t.low
  {
  }

  /** The frame of an upward breakout: the corrected bar, then
      n = (close - renkoHigh) / offset empty bricks and the new open brick,
      the first of them opening at renkoHigh; the thresholds end three brick
      sizes apart around the close. */
  lemma BreakUpShape(a: Series, close: int, time: int, volume: int)
    requires a.offset > 0 && a.bars != [] && close >= a.renkoHigh
    ensures var r, n := BreakUp(a, close, time, volume), (close - a.renkoHigh) / a.offset;
      && r.offset == a.offset && r.wickHigh == close && r.wickLow == close
      && |r.bars| == |a.bars| + n + 1
      && r.bars[..|a.bars|] == CorrectLast(a.bars, UpTarget(a))
      && r.renkoHigh == a.renkoHigh + (n + 1) * a.offset
      && r.renkoLow == r.renkoHigh - 3 * a.offset
      && r.renkoHigh - a.offset <= close < r.renkoHigh
      && r.bars[|a.bars|].open == a.renkoHigh
  {
    var advanced := a.(bars := CorrectLast(a.bars, UpTarget(a)),
                       renkoLow := a.renkoHigh - 2 * a.offset, renkoHigh := a.renkoHigh + a.offset);
    FillUpShape(advanced, close, time);
    FillUpBricks(advanced, close, time);
    FillUpEnd(advanced, close, time);
    var filled := FillUp(advanced, close, time);
    var m := |filled.bars| - |advanced.bars|;
    assert filled.renkoHigh == a.renkoHigh + a.offset + m * a.offset;
    assert (m + 1) * a.offset == m * a.offset + a.offset;
    assert m * a.offset <= close - a.renkoHigh < m * a.offset + a.offset;
    DivBracket(close - a.renkoHigh, a.offset, m);
    var r := BreakUp(a, close, time, volume);
    assert r.bars == filled.bars + [Last(r.bars)];
    assert r.bars[..|a.bars|] == filled.bars[..|a.bars|];
  }

  /** The bars after the corrected one on an upward breakout: full fill
      bricks, each opening at the previous close, then the new open brick. */
  lemma BreakUpBricks(a: Series, close: int, time: int, volume: int)
    requires a.offset > 0 && a.bars != [] && close >= a.renkoHigh
    ensures var r := BreakUp(a, close, time, volume);
      && |r.bars| > |a.bars|
      && (forall j :: |a.bars| <= j < |r.bars| - 1 ==> r.bars[j] == EmptyUpBrick(r.bars[j].open, a.offset, time))
      && (forall j :: |a.bars| < j < |r.bars| ==> r.bars[j].open == r.bars[j - 1].close)
      && Last(r.bars) == Bar(r.renkoHigh - a.offset, close, r.renkoHigh - a.offset, close, time, volume)
  {
    var advanced := a.(bars := CorrectLast(a.bars, UpTarget(a)),
                       renkoLow := a.renkoHigh - 2 * a.offset, renkoHigh := a.renkoHigh + a.offset);
    FillUpShape(advanced, close, time);
    FillUpBricks(advanced, close, time);
    FillUpEnd(advanced, close, time);
    var filled := FillUp(advanced, close, time);
    var r := BreakUp(a, close, time, volume);
    assert r.bars == filled.bars + [Last(r.bars)];
  }

  /** The frame of a downward breakout, mirroring BreakUpShape. */
  lemma BreakDownShape(a: Series, close: int, time: int, volume: int)
    requires a.offset > 0 && a.bars != [] && close <= a.renkoLow
    ensures var r, n := BreakDown(a, close, time, volume), (a.renkoLow - close) / a.offset;
      && r.offset == a.offset && r.wickHigh == close && r.wickLow == close
      && |r.bars| == |a.bars| + n + 1
      && r.bars[..|a.bars|] == CorrectLast(a.bars, DownTarget(a))
      && r.renkoLow == a.renkoLow - (n + 1) * a.offset
      && r.renkoHigh == r.renkoLow + 3 * a.offset
      && r.renkoLow < close <= r.renkoLow + a.offset
      && r.bars[|a.bars|].open == a.renkoLow
  {
    var advanced := a.(bars := CorrectLast(a.bars, DownTarget(a)),
                       renkoHigh := a.renkoLow + 2 * a.offset, renkoLow := a.renkoLow - a.offset);
    FillDownShape(advanced, close, time);
    FillDownBricks(advanced, close, time);
    FillDownEnd(advanced, close, time);
    var filled := FillDown(advanced, close, time);
    var m := |filled.bars| - |advanced.bars|;
    assert filled.renkoLow == a.renkoLow - a.offset - m * a.offset;
    assert (m + 1) * a.offset == m * a.offset + a.offset;
    assert m * a.offset <= a.renkoLow - close < m * a.offset + a.offset;
    DivBracket(a.renkoLow - close, a.offset, m);
    var r := BreakDown(a, close, time, volume);
    assert r.bars == filled.bars + [Last(r.bars)];
    assert r.bars[..|a.bars|] == filled.bars[..|a.bars|];
  }

  /** The bars after the corrected one on a downward breakout: full fill
      bricks, each opening at the previous close, then the new open brick. */
  lemma BreakDownBricks(a: Series, close: int, time: int, volume: int)
    requires a.offset > 0 && a.bars != [] && close <= a.renkoLow
    ensures var r := BreakDown(a, close, time, volume);
      && |r.bars| > |a.bars|
      && (forall j :: |a.bars| <= j < |r.bars| - 1 ==> r.bars[j] == EmptyDownBrick(r.bars[j].open, a.offset, time))
      && (forall j :: |a.bars| < j < |r.bars| ==> r.bars[j].open == r.bars[j - 1].close)
      && Last(r.bars) == Bar(r.renkoLow + a.offset, r.renkoLow + a.offset, close, close, time, volume)
  {
    var advanced := a.(bars := CorrectLast(a.bars, DownTarget(a)),
                       renkoHigh := a.renkoLow + 2 * a.offset, renkoLow := a.renkoLow - a.offset);
    FillDownShape(advanced, close, time);
    FillDownBricks(advanced, close, time);
    FillDownEnd(advanced, close, time);
    var filled := FillDown(advanced, close, time);
    var r := BreakDown(a, close, time, volume);
    assert r.bars == filled.bars + [Last(r.bars)];
  }

  /** Upward breakout: the open bar gets its closed shape unless open, high
      and low already match it; every earlier bar is kept. */
  lemma UpwardCorrection(s: Series, offset: int, reset: bool, newSession: bool, t: Tick)
    requires offset > 0 && !Starts(s.bars, reset, newSession)
    requires t.close >= Armed(s, offset, t).renkoHigh
    ensures var a, r := Armed(s, offset, t), Step(s, offset, reset, newSession, t);
      var last, target := Last(s.bars), UpTarget(a);
      && |r.bars| > |s.bars|
      && r.bars[..|s.bars| - 1] == s.bars[..|s.bars| - 1]
      && r.bars[|s.bars| - 1] == (if SameShape(last, target) then last else target)
  {
    var a := Armed(s, offset, t);
    var r := Step(s, offset, reset, newSession, t);
    assert r == BreakUp(a, t.close, t.time, t.volume);
    BreakUpShape(a, t.close, t.time, t.volume);
    assert r.bars[..|s.bars|][..|s.bars| - 1] == r.bars[..|s.bars| - 1];
    assert r.bars[..|s.bars|][|s.bars| - 1] == r.bars[|s.bars| - 1];
  }

  /** After an upward breakout the thresholds are three brick sizes apart and
      the close lies in the top brick, below renkoHigh. */
  lemma UpwardThresholds(s: Series, offset: int, reset: bool, newSession: bool, t: Tick)
    requires offset > 0 && !Starts(s.bars, reset, newSession)
    requires t.close >= Armed(s, offset, t).renkoHigh
    ensures var a, r := Armed(s, offset, t), Step(s, offset, reset, newSession, t);
      && r.offset == offset && r.renkoHigh - r.renkoLow == 3 * offset
      && r.renkoHigh - offset <= t.close < r.renkoHigh
      && r.renkoHigh == a.renkoHigh + ((t.close - a.renkoHigh) / offset + 1) * offset
  {
    var a := Armed(s, offset, t);
    assert Step(s, offset, reset, newSession, t) == BreakUp(a, t.close, t.time, t.volume);
    BreakUpShape(a, t.close, t.time, t.volume);
  }

  /** The upward gap fill: one empty brick per further brick size, each
      opening at the previous brick's close, then the new open brick. */
  lemma UpwardGapFill(s: Series, offset: int, reset: bool, newSession: bool, t: Tick)
    requires offset > 0 && !Starts(s.bars, reset, newSession)
    requires t.close >= Armed(s, offset, t).renkoHigh
    ensures var a, r := Armed(s, offset, t), Step(s, offset, reset, newSession, t);
      && |r.bars| == |s.bars| + (t.close - a.renkoHigh) / offset + 1
      && r.bars[|s.bars|].open == a.renkoHigh
      && (forall j :: |s.bars| <= j < |r.bars| - 1 ==> r.bars[j] == EmptyUpBrick(r.bars[j].open, offset, t.time))
      && (forall j :: |s.bars| < j < |r.bars| ==> r.bars[j].open == r.bars[j - 1].close)
  {
    var a := Armed(s, offset, t);
    assert Step(s, offset, reset, newSession, t) == BreakUp(a, t.close, t.time, t.volume);
    BreakUpShape(a, t.close, t.time, t.volume);
    BreakUpBricks(a, t.close, t.time, t.volume);
  }

  lemma BreakUpNewBrick(a: Series, close: int, time: int, volume: int)
    requires a.offset > 0 && a.bars != [] && close >= a.renkoHigh
    ensures var r := BreakUp(a, close, time, volume);
      var b := Last(r.bars);
      && b == Bar(r.renkoHigh - a.offset, close, r.renkoHigh - a.offset, close, time, volume)
      && b.open <= close
      && r.wickHigh == close && r.wickLow == close
      && |r.bars| > |a.bars|
      && ((!SameShape(Last(a.bars), UpTarget(a)) || close >= a.renkoHigh + a.offset) ==> r.bars[|r.bars| - 2].close == b.open)
  {
    BreakUpShape(a, close, time, volume);
    BreakUpBricks(a, close, time, volume);
    var r := BreakUp(a, close, time, volume);
    if |r.bars| == |a.bars| + 1 && !SameShape(Last(a.bars), UpTarget(a)) {
      assert r.bars[|r.bars| - 2] == r.bars[..|a.bars|][|a.bars| - 1];
    }
  }

  /** The new open brick after an upward breakout: it opens one brick below
      renkoHigh, at or under the close, has no lower wick, and the wicks
      restart at the close. It continues the bar before it unless that bar
      was left uncorrected and no gap was filled. */
  lemma UpwardNewBrick(s: Series, offset: int, reset: bool, newSession: bool, t: Tick)
    requires offset > 0 && !Starts(s.bars, reset, newSession)
    requires t.close >= Armed(s, offset, t).renkoHigh
    ensures var a, r := Armed(s, offset, t), Step(s, offset, reset, newSession, t);
      var b := Last(r.bars);
      && b == Bar(r.renkoHigh - offset, t.close, r.renkoHigh - offset, t.close, t.time, t.volume)
      && b.open <= t.close
      && r.wickHigh == t.close && r.wickLow == t.close
      && |r.bars| > |s.bars|
      && ((!SameShape(Last(s.bars), UpTarget(a)) || t.close >= a.renkoHigh + offset) ==>
            r.bars[|r.bars| - 2].close == b.open)
  {
    var a := Armed(s, offset, t);
    assert Step(s, offset, reset, newSession, t) == BreakUp(a, t.close, t.time, t.volume);
    BreakUpNewBrick(a, t.close, t.time, t.volume);
  }

  /** Downward breakout: the open bar gets its closed shape unless open,
      high and low already match it; every earlier bar is kept. */
  lemma DownwardCorrection(s: Series, offset: int, reset: bool, newSession: bool, t: Tick)
    requires offset > 0 && !Starts(s.bars, reset, newSession)
    requires t.close < Armed(s, offset, t).renkoHigh && t.close <= Armed(s, offset, t).renkoLow
    ensures var a, r := Armed(s, offset, t), Step(s, offset, reset, newSession, t);
      var last, target := Last(s.bars), DownTarget(a);
      && |r.bars| > |s.bars|
      && r.bars[..|s.bars| - 1] == s.bars[..|s.bars| - 1]
      && r.bars[|s.bars| - 1] == (if SameShape(last, target) then last else target)
  {
    var a := Armed(s, offset, t);
    var r := Step(s, offset, reset, newSession, t);
    assert r == BreakDown(a, t.close, t.time, t.volume);
    BreakDownShape(a, t.close, t.time, t.volume);
    assert r.bars[..|s.bars|][..|s.bars| - 1] == r.bars[..|s.bars| - 1];
    assert r.bars[..|s.bars|][|s.bars| - 1] == r.bars[|s.bars| - 1];
  }

  /** After a downward breakout the thresholds are three brick sizes apart
      and the close lies in the bottom brick, above renkoLow. */
  lemma DownwardThresholds(s: Series, offset: int, reset: bool, newSession: bool, t: Tick)
    requires offset > 0 && !Starts(s.bars, reset, newSession)
    requires t.close < Armed(s, offset, t).renkoHigh && t.close <= Armed(s, offset, t).renkoLow
    ensures var a, r := Armed(s, offset, t), Step(s, offset, reset, newSession, t);
      && r.offset == offset && r.renkoHigh - r.renkoLow == 3 * offset
      && r.renkoLow < t.close <= r.renkoLow + offset
      && r.renkoLow == a.renkoLow - ((a.renkoLow - t.close) / offset + 1) * offset
  {
    var a := Armed(s, offset, t);
    assert Step(s, offset, reset, newSession, t) == BreakDown(a, t.close, t.time, t.volume);
    BreakDownShape(a, t.close, t.time, t.volume);
  }

  /** The downward gap fill, mirroring UpwardGapFill. */
  lemma DownwardGapFill(s: Series, offset: int, reset: bool, newSession: bool, t: Tick)
    requires offset > 0 && !Starts(s.bars, reset, newSession)
    requires t.close < Armed(s, offset, t).renkoHigh && t.close <= Armed(s, offset, t).renkoLow
    ensures var a, r := Armed(s, offset, t), Step(s, offset, reset, newSession, t);
      && |r.bars| == |s.bars| + (a.renkoLow - t.close) / offset + 1
      && r.bars[|s.bars|].open == a.renkoLow
      && (forall j :: |s.bars| <= j < |r.bars| - 1 ==> r.bars[j] == EmptyDownBrick(r.bars[j].open, offset, t.time))
      && (forall j :: |s.bars| < j < |r.bars| ==> r.bars[j].open == r.bars[j - 1].close)
  {
    var a := Armed(s, offset, t);
    assert Step(s, offset, reset, newSession, t) == BreakDown(a, t.close, t.time, t.volume);
    BreakDownShape(a, t.close, t.time, t.volume);
    BreakDownBricks(a, t.close, t.time, t.volume);
  }

  lemma BreakDownNewBrick(a: Series, close: int, time: int, volume: int)
    requires a.offset > 0 && a.bars != [] && close <= a.renkoLow
    ensures var r := BreakDown(a, close, time, volume);
      var b := Last(r.bars);
      && b == Bar(r.renkoLow + a.offset, r.renkoLow + a.offset, close, close, time, volume)
      && b.open >= close
      && r.wickHigh == close && r.wickLow == close
      && |r.bars| > |a.bars|
      && ((!SameShape(Last(a.bars), DownTarget(a)) || close <= a.renkoLow - a.offset) ==> r.bars[|r.bars| - 2].close == b.open)
  {
    BreakDownShape(a, close, time, volume);
    BreakDownBricks(a, close, time, volume);
    var r := BreakDown(a, close, time, volume);
    if |r.bars| == |a.bars| + 1 && !SameShape(Last(a.bars), DownTarget(a)) {
      assert r.bars[|r.bars| - 2] == r.bars[..|a.bars|][|a.bars| - 1];
    }
  }

  /** The new open brick after a downward breakout, mirroring UpwardNewBrick. */
  lemma DownwardNewBrick(s: Series, offset: int, reset: bool, newSession: bool, t: Tick)
    requires offset > 0 && !Starts(s.bars, reset, newSession)
    requires t.close < Armed(s, offset, t).renkoHigh && t.close <= Armed(s, offset, t).renkoLow
    ensures var a, r := Armed(s, offset, t), Step(s, offset, reset, newSession, t);
      var b := Last(r.bars);
      && b == Bar(r.renkoLow + offset, r.renkoLow + offset, t.close, t.close, t.time, t.volume)
      && b.open >= t.close
      && r.wickHigh == t.close && r.wickLow == t.close
      && |r.bars| > |s.bars|
      && ((!SameShape(Last(s.bars), DownTarget(a)) || t.close <= a.renkoLow - offset) ==>
            r.bars[|r.bars| - 2].close == b.open)
  {
    var a := Armed(s, offset, t);
    assert Step(s, offset, reset, newSession, t) == BreakDown(a, t.close, t.time, t.volume);
    BreakDownNewBrick(a, t.close, t.time, t.volume);
  }

  /** The closed shape of the open bar on an upward breakout is a full brick
      ending at renkoHigh, its upper wick clamped there and its lower wick
      reaching the lowest low seen. */
  lemma UpTargetIsFullBrick(a: Series)
    requires a.offset > 0 && a.bars != [] && a.wickHigh >= a.renkoHigh
    ensures var b := UpTarget(a);
      && b.close == a.renkoHigh && b.open == b.close - a.offset
      && b.high == b.close && b.low == Min(b.open, a.wickLow)
      && b.time == Last(a.bars).time && b.volume == Last(a.bars).volume
  {
  }

  /** The closed shape of the open bar on a downward breakout, mirroring
      UpTargetIsFullBrick. */
  lemma DownTargetIsFullBrick(a: Series)
    requires a.offset > 0 && a.bars != [] && a.wickLow <= a.renkoLow
    ensures var b := DownTarget(a);
      && b.close == a.renkoLow && b.open == b.close + a.offset
      && b.low == b.close && b.high == Max(b.open, a.wickHigh)
      && b.time == Last(a.bars).time && b.volume == Last(a.bars).volume
  {
  }

  /** Lazy re-seed: set thresholds are kept; a zero threshold is rebuilt two
      brick sizes wide around the only bar's open, or three brick sizes wide
      with the bar before the last one closing one brick inside the band on
      the side it moved to. */
  lemma LazyReseed(s: Series, offset: int, t: Tick)
    requires offset > 0 && s.bars != []
    ensures var a := Armed(s, offset, t);
      && a.offset == offset && a.bars == s.bars
      && a.wickHigh == Max(s.wickHigh, t.high) && a.wickLow == Min(s.wickLow, t.low)
      && (s.renkoHigh != 0 && s.renkoLow != 0 ==> a.renkoHigh == s.renkoHigh && a.renkoLow == s.renkoLow)
      && ((s.renkoHigh == 0 || s.renkoLow == 0) && |s.bars| == 1 ==>
            a.renkoHigh == s.bars[0].open + offset && a.renkoLow == s.bars[0].open - offset)
      && ((s.renkoHigh == 0 || s.renkoLow == 0) && |s.bars| >= 2 ==>
            var prev := s.bars[|s.bars| - 2];
            && a.renkoHigh - a.renkoLow == 3 * offset
            && (prev.close > prev.open ==> a.renkoHigh - offset == prev.close)
            && (prev.close <= prev.open ==> a.renkoLow + offset == prev.close))
  {
  }

  /** The lazy re-seed rebuilds the thresholds but not the wicks: a builder
      whose fields are all still zero, meeting bars of positive prices, keeps
      its low wick at zero, and a point with no breakout writes the open
      bar's low as zero. */
  lemma ZeroWicksSurviveReseed(s: Series, offset: int, reset: bool, newSession: bool, t: Tick)
    requires offset > 0 && !Starts(s.bars, reset, newSession)
    requires s.renkoHigh == 0 && s.renkoLow == 0 && s.wickHigh == 0 && s.wickLow == 0
    requires t.low > 0 && Last(s.bars).open > 0
    requires Armed(s, offset, t).renkoLow < t.close < Armed(s, offset, t).renkoHigh
    ensures var r := Step(s, offset, reset, newSession, t);
      && r.wickLow == 0
      && Last(r.bars).low == 0
  {
    NoBreakout(s, offset, reset, newSession, t);
  }

  /** A concrete instance: one bar at 1000, brick size 20, a point at 1005. */
  lemma ZeroWickExample()
    ensures Step(Series(0, 0, 0, 0, 0, [Bar(1000, 1000, 1000, 1000, 0, 1)]), 20, false, false, Tick(1005, 1005, 1005, 1, 1)).bars
      == [Bar(1000, 1005, 0, 1005, 1, 1)]
  {
    var s := Series(0, 0, 0, 0, 0, [Bar(1000, 1000, 1000, 1000, 0, 1)]);
    assert Armed(s, 20, Tick(1005, 1005, 1005, 1, 1)) == s.(offset := 20, wickHigh := 1005, renkoHigh := 1020, renkoLow := 980);
  }

  lemma BreakUpReseeds(a: Series, close: int, time: int, volume: int)
    requires a.offset > 0 && a.bars != [] && close >= a.renkoHigh
    requires !SameShape(Last(a.bars), UpTarget(a)) || close >= a.renkoHigh + a.offset
    ensures var r := BreakUp(a, close, time, volume);
      Reseed(r.(renkoHigh := 0)) == r && Reseed(r.(renkoLow := 0)) == r
  {
    BreakUpShape(a, close, time, volume);
    BreakUpBricks(a, close, time, volume);
    var r := BreakUp(a, close, time, volume);
    var prev := r.bars[|r.bars| - 2];
    if |r.bars| == |a.bars| + 1 {
      assert prev == r.bars[..|a.bars|][|a.bars| - 1];
    } else {
      assert prev == EmptyUpBrick(prev.open, a.offset, time);
    }
    assert prev.close == r.renkoHigh - a.offset && prev.open == prev.close - a.offset;
  }

  lemma BreakDownReseeds(a: Series, close: int, time: int, volume: int)
    requires a.offset > 0 && a.bars != [] && close <= a.renkoLow
    requires !SameShape(Last(a.bars), DownTarget(a)) || close <= a.renkoLow - a.offset
    ensures var r := BreakDown(a, close, time, volume);
      Reseed(r.(renkoHigh := 0)) == r && Reseed(r.(renkoLow := 0)) == r
  {
    BreakDownShape(a, close, time, volume);
    BreakDownBricks(a, close, time, volume);
    var r := BreakDown(a, close, time, volume);
    var prev := r.bars[|r.bars| - 2];
    if |r.bars| == |a.bars| + 1 {
      assert prev == r.bars[..|a.bars|][|a.bars| - 1];
    } else {
      assert prev == EmptyDownBrick(prev.open, a.offset, time);
    }
    assert prev.close == r.renkoLow + a.offset && prev.open == prev.close + a.offset;
  }

  /** After an upward breakout whose last closed brick really closed at the
      breakout level, a re-seed from zeroed thresholds gives back exactly the
      thresholds the breakout left. */
  lemma ReseedRecoversUp(s: Series, offset: int, reset: bool, newSession: bool, t: Tick)
    requires offset > 0 && !Starts(s.bars, reset, newSession)
    requires t.close >= Armed(s, offset, t).renkoHigh
    requires !SameShape(Last(s.bars), UpTarget(Armed(s, offset, t))) || t.close >= Armed(s, offset, t).renkoHigh + offset
    ensures var r := Step(s, offset, reset, newSession, t);
      Reseed(r.(renkoHigh := 0)) == r && Reseed(r.(renkoLow := 0)) == r
  {
    var a := Armed(s, offset, t);
    assert Step(s, offset, reset, newSession, t) == BreakUp(a, t.close, t.time, t.volume);
    BreakUpReseeds(a, t.close, t.time, t.volume);
  }

  /** The downward counterpart of ReseedRecoversUp. */
  lemma ReseedRecoversDown(s: Series, offset: int, reset: bool, newSession: bool, t: Tick)
    requires offset > 0 && !Starts(s.bars, reset, newSession)
    requires t.close < Armed(s, offset, t).renkoHigh && t.close <= Armed(s, offset, t).renkoLow
    requires !SameShape(Last(s.bars), DownTarget(Armed(s, offset, t))) || t.close <= Armed(s, offset, t).renkoLow - offset
    ensures var r := Step(s, offset, reset, newSession, t);
      Reseed(r.(renkoHigh := 0)) == r && Reseed(r.(renkoLow := 0)) == r
  {
    var a := Armed(s, offset, t);
    assert Step(s, offset, reset, newSession, t) == BreakDown(a, t.close, t.time, t.volume);
    BreakDownReseeds(a, t.close, t.time, t.volume);
  }

  /** Whatever the data point, bars are only added, and every bar before the
      last one is left as it was. */
  lemma OnlyLastBarChanges(s: Series, offset: int, reset: bool, newSession: bool, t: Tick)
    requires offset > 0
    ensures var r := Step(s, offset, reset, newSession, t);
      && |r.bars| >= |s.bars| && r.bars != []
      && (s.bars != [] ==> r.bars[..|s.bars| - 1] == s.bars[..|s.bars| - 1])
  {
    if Starts(s.bars, reset, newSession) {
      SeedOrReset(s, offset, reset, newSession, t);
    } else {
      var a := Armed(s, offset, t);
      if t.close >= a.renkoHigh {
        UpwardCorrection(s, offset, reset, newSession, t);
      } else if t.close <= a.renkoLow {
        DownwardCorrection(s, offset, reset, newSession, t);
      } else {
        NoBreakout(s, offset, reset, newSession, t);
      }
    }
  }

  lemma BreakUpContained(a: Series, close: int, time: int, volume: int)
    requires a.offset > 0 && a.bars != [] && close >= a.renkoHigh
    requires AllContained(a.bars) && a.wickHigh >= close
    ensures AllContained(BreakUp(a, close, time, volume).bars)
  {
    BreakUpShape(a, close, time, volume);
    BreakUpBricks(a, close, time, volume);
    var r := BreakUp(a, close, time, volume);
    var corrected := CorrectLast(a.bars, UpTarget(a));
    assert Contained(Last(corrected));
    forall i | 0 <= i < |r.bars| ensures Contained(r.bars[i]) {
      if i < |a.bars| {
        assert r.bars[i] == corrected[i];
        if i < |a.bars| - 1 {
          assert corrected[i] == a.bars[i];
        }
      }
    }
  }

  lemma BreakDownContained(a: Series, close: int, time: int, volume: int)
    requires a.offset > 0 && a.bars != [] && close <= a.renkoLow
    requires AllContained(a.bars) && a.wickLow <= close
    ensures AllContained(BreakDown(a, close, time, volume).bars)
  {
    BreakDownShape(a, close, time, volume);
    BreakDownBricks(a, close, time, volume);
    var r := BreakDown(a, close, time, volume);
    var corrected := CorrectLast(a.bars, DownTarget(a));
    assert Contained(Last(corrected));
    forall i | 0 <= i < |r.bars| ensures Contained(r.bars[i]) {
      if i < |a.bars| {
        assert r.bars[i] == corrected[i];
        if i < |a.bars| - 1 {
          assert corrected[i] == a.bars[i];
        }
      }
    }
  }

  lemma SeedContained(s: Series, offset: int, close: int, time: int, volume: int)
    requires offset > 0 && AllContained(s.bars)
    ensures AllContained(Seed(s, offset, close, time, volume).bars)
  {
    var r := Seed(s, offset, close, time, volume);
    forall i | 0 <= i < |r.bars| ensures Contained(r.bars[i]) {
      if i < |s.bars| - 1 {
        assert r.bars[i] == s.bars[i];
      }
    }
  }

  lemma HoldContained(a: Series, t: Tick)
    requires a.bars != [] && AllContained(a.bars)
    requires a.wickHigh >= t.close >= a.wickLow
    ensures AllContained(Hold(a, t.close, t.time, t.volume).bars)
  {
    var r := Hold(a, t.close, t.time, t.volume);
    forall i | 0 <= i < |r.bars| ensures Contained(r.bars[i]) {
      if i < |a.bars| - 1 {
        assert r.bars[i] == a.bars[i];
      }
    }
  }

  /** Wick containment: when every bar's high and low enclose its open and
      close, they still do after any well-formed data point, the open bar
      and every brick the point closes included. */
  lemma ContainmentPreserved(s: Series, offset: int, reset: bool, newSession: bool, t: Tick)
    requires offset > 0 && AllContained(s.bars) && WellFormed(t)
    ensures AllContained(Step(s, offset, reset, newSession, t).bars)
  {
    if Starts(s.bars, reset, newSession) {
      SeedContained(s, offset, t.close, t.time, t.volume);
    } else {
      var a := Armed(s, offset, t);
      assert a.bars == s.bars && a.wickHigh >= t.high && a.wickLow <= t.low;
      if t.close >= a.renkoHigh {
        BreakUpContained(a, t.close, t.time, t.volume);
      } else if t.close <= a.renkoLow {
        BreakDownContained(a, t.close, t.time, t.volume);
      } else {
        HoldContained(a, t);
      }
    }
  }

  /** The thresholds stay two or three brick sizes apart from one data point
      to the next, as long as the brick size does not change. */
  lemma GapPreserved(s: Series, offset: int, reset: bool, newSession: bool, t: Tick)
    requires offset > 0
    requires Starts(s.bars, reset, newSession) || (s.offset == offset && GapOk(s))
    ensures var r := Step(s, offset, reset, newSession, t);
      r.offset == offset && GapOk(r)
  {
    if !Starts(s.bars, reset, newSession) {
      var a := Armed(s, offset, t);
      if t.close >= a.renkoHigh {
        UpwardThresholds(s, offset, reset, newSession, t);
      } else if t.close <= a.renkoLow {
        DownwardThresholds(s, offset, reset, newSession, t);
      }
    }
  }

  /** What every state reached from a fresh builder satisfies. */
  predicate Inv(s: Series, offset: int) {
    AllContained(s.bars) && (s.bars == [] || (s.offset == offset && GapOk(s)))
  }

  /** Over a whole stream of well-formed data points with a fixed brick
      size, the invariant holds throughout, bars are only added and no bar
      before the first state's last one ever changes. */
  lemma {:induction false} RunKeepsInvariant(s: Series, offset: int, reset: bool, inputs: seq<Input>)
    requires offset > 0 && Inv(s, offset)
    requires forall i :: 0 <= i < |inputs| ==> WellFormed(inputs[i].tick)
    ensures var r := Run(s, offset, reset, inputs);
      && Inv(r, offset)
      && |r.bars| >= |s.bars|
      && (s.bars != [] ==> r.bars[..|s.bars| - 1] == s.bars[..|s.bars| - 1])
    decreases |inputs|
  {
    if inputs != [] {
      var t, ns := inputs[0].tick, inputs[0].newSession;
      var s1 := Step(s, offset, reset, ns, t);
      ContainmentPreserved(s, offset, reset, ns, t);
      GapPreserved(s, offset, reset, ns, t);
      OnlyLastBarChanges(s, offset, reset, ns, t);
      assert forall i :: 0 <= i < |inputs[1..]| ==> WellFormed(inputs[1..][i].tick) by {
        forall i | 0 <= i < |inputs[1..]| ensures WellFormed(inputs[1..][i].tick) {
          assert inputs[1..][i] == inputs[i + 1];
        }
      }
      RunKeepsInvariant(s1, offset, reset, inputs[1..]);
      var r := Run(s, offset, reset, inputs);
      assert r == Run(s1, offset, reset, inputs[1..]);
      if s.bars != [] {
        assert r.bars[..|s.bars| - 1] == r.bars[..|s1.bars| - 1][..|s.bars| - 1];
        assert s1.bars[..|s1.bars| - 1][..|s.bars| - 1] == s1.bars[..|s.bars| - 1];
      }
    }
  }

  /** From a freshly created builder every stream of well-formed data points
      with a fixed brick size leaves high and low enclosing open and close on
      every bar and the thresholds two or three brick sizes apart. */
  lemma FromEmpty(offset: int, reset: bool, inputs: seq<Input>)
    requires offset > 0
    requires forall i :: 0 <= i < |inputs| ==> WellFormed(inputs[i].tick)
    ensures var r := Run(Empty, offset, reset, inputs);
      && AllContained(r.bars)
      && (|r.bars| >= 1 ==> GapOk(r) && r.offset == offset)
  {
    RunKeepsInvariant(Empty, offset, reset, inputs);
  }
}

=== FILE: renko_spec.dfy ===
/** What one data point does to the Renko builder's fields and to the bar
    list, written as functions that follow OnDataPoint branch by branch. */
module RenkoSpec {
  import opened Data

  /** The fields of a data point the builder reads (open, bid and ask are
      unused by it). */
  datatype Tick = Tick(high: int, low: int, close: int, time: int, volume: int)

  /** The builder's five fields together with the bar list it writes. */
  datatype Series = Series(
    offset: int,
    renkoHigh: int,
    renkoLow: int,
    wickHigh: int,
    wickLow: int,
    bars: seq<Bar>)

  /** The fields of a freshly created builder, before any bar exists. */
  const Empty := Series(0, 0, 0, 0, 0, [])

  function Last(bars: seq<Bar>): (r: Bar)
    requires bars != []
  {
    bars[|bars| - 1]
  }

  /** RemoveLastBar followed by AddBar. */
  function ReplaceLast(bars: seq<Bar>, b: Bar): (r: seq<Bar>)
    requires bars != []
  {
    bars[..|bars| - 1] + [b]
  }

  /** A data point starts a new series: there is no bar yet, or the series
      resets on a new trading day and this point opens a new session. */
  predicate Starts(bars: seq<Bar>, resetOnNewTradingDay: bool, newSession: bool) {
    |bars| == 0 || (resetOnNewTradingDay && newSession)
  }

  /** First bar or session reset: flatten the last bar at its own close and
      open a flat bar at the new close, centred between the thresholds. */
  function Seed(s: Series, offset: int, close: int, time: int, volume: int): (r: Series)
    requires offset > 0
    ensures |r.bars| == |s.bars| + 1 && Last(r.bars) == Flat(close, time, volume)
    ensures r.renkoLow < close < r.renkoHigh
    ensures r.renkoHigh - r.renkoLow == 2 * offset && r.wickHigh == close == r.wickLow
  {
    var kept :=
      if s.bars == [] then []
      else
        var last := Last(s.bars);
        ReplaceLast(s.bars, Flat(last.close, last.time, last.volume));
    Series(offset, close + offset, close - offset, close, close, kept + [Flat(close, time, volume)])
  }

  /** Lazy re-seed: a threshold still at zero is rebuilt from the bars. */
  function Reseed(s: Series): (r: Series)
    requires s.bars != []
    ensures r.bars == s.bars && r.offset == s.offset && r.wickHigh == s.wickHigh && r.wickLow == s.wickLow
    ensures s.renkoHigh != 0 && s.renkoLow != 0 ==> r == s
    ensures s.renkoHigh == 0 || s.renkoLow == 0 ==>
      r.renkoHigh - r.renkoLow == (if |s.bars| == 1 then 2 else 3) * s.offset
  {
    if s.renkoHigh == 0 || s.renkoLow == 0 then
      if |s.bars| == 1 then
        s.(renkoHigh := s.bars[0].open + s.offset, renkoLow := s.bars[0].open - s.offset)
      else
        var prev := s.bars[|s.bars| - 2];
        if prev.close > prev.open then
          s.(renkoHigh := prev.close + s.offset, renkoLow := prev.close - 2 * s.offset)
        else
          s.(renkoHigh := prev.close + 2 * s.offset, renkoLow := prev.close - s.offset)
    else s
  }

  /** The state in which a data point is classified: the new offset, the
      wicks widened by the point, and the thresholds re-seeded if needed. */
  function Armed(s: Series, offset: int, t: Tick): (r: Series)
    requires s.bars != []
    ensures r.bars == s.bars && r.offset == offset
    ensures r.wickHigh >= s.wickHigh && r.wickHigh >= t.high && r.wickLow <= s.wickLow && r.wickLow <= t.low
    ensures s.renkoHigh != 0 && s.renkoLow != 0 ==> r.renkoHigh == s.renkoHigh && r.renkoLow == s.renkoLow
  {
    Reseed(s.(offset := offset, wickHigh := Max(s.wickHigh, t.high), wickLow := Min(s.wickLow, t.low)))
  }

  /** The closed shape of the open bar on an upward breakout. */
  function UpTarget(s: Series): (r: Bar)
    requires s.bars != []
    ensures r.close == s.renkoHigh && r.close - r.open == s.offset
    ensures r.low <= r.open <= r.high && r.high <= Max(r.open, s.renkoHigh)
    ensures r.time == Last(s.bars).time && r.volume == Last(s.bars).volume
  {
    var o := s.renkoHigh - s.offset;
    var last := Last(s.bars);
    Bar(o, Max(o, Min(s.wickHigh, s.renkoHigh)), Min(o, s.wickLow), s.renkoHigh, last.time, last.volume)
  }

  /** The closed shape of the open bar on a downward breakout. */
  function DownTarget(s: Series): (r: Bar)
    requires s.bars != []
    ensures r.close == s.renkoLow && r.open - r.close == s.offset
    ensures r.low <= r.open <= r.high && r.low >= Min(r.open, s.renkoLow)
    ensures r.time == Last(s.bars).time && r.volume == Last(s.bars).volume
  {
    var o := s.renkoLow + s.offset;
    var last := Last(s.bars);
    Bar(o, Max(o, s.wickHigh), Min(o, Max(s.wickLow, s.renkoLow)), s.renkoLow, last.time, last.volume)
  }

  /** The correction test: open, high and low are compared; close is not. */
  predicate SameShape(b: Bar, target: Bar) {
    b.open == target.open && b.high == target.high && b.low == target.low
  }

  /** The last bar is replaced by `target` unless it already has its shape. */
  function CorrectLast(bars: seq<Bar>, target: Bar): (r: seq<Bar>)
    requires bars != []
    ensures |r| == |bars| && r[..|bars| - 1] == bars[..|bars| - 1]
    ensures SameShape(Last(r), target)
    ensures Last(r) == Last(bars) || Last(r) == target
  {
    if SameShape(Last(bars), target) then bars else ReplaceLast(bars, target)
  }

  /** The upward gap-fill loop: while the close reaches renkoHigh, append a
      zero-volume brick ending at renkoHigh and move both thresholds up. */
  function FillUp(s: Series, close: int, time: int): (r: Series)
    requires s.offset > 0
    ensures r.offset == s.offset && r.wickHigh == s.wickHigh && r.wickLow == s.wickLow
    ensures |r.bars| >= |s.bars| && close < r.renkoHigh
    ensures s.renkoLow < close ==> r.renkoLow < close
    decreases close - s.renkoHigh
  {
    if close >= s.renkoHigh then
      var o := s.renkoHigh - s.offset;
      FillUp(s.(bars := s.bars + [Bar(o, Max(o, s.renkoHigh), Min(o, s.renkoHigh), s.renkoHigh, time, 0)],
                renkoLow := s.renkoHigh - 2 * s.offset,
                renkoHigh := s.renkoHigh + s.offset),
             close, time)
    else s
  }

  /** The downward gap-fill loop, mirroring FillUp. */
  function FillDown(s: Series, close: int, time: int): (r: Series)
    requires s.offset > 0
    ensures r.offset == s.offset && r.wickHigh == s.wickHigh && r.wickLow == s.wickLow
    ensures |r.bars| >= |s.bars| && r.renkoLow < close
    ensures close < s.renkoHigh ==> close < r.renkoHigh
    decreases s.renkoLow - close
  {
    if close <= s.renkoLow then
      var o := s.renkoLow + s.offset;
      FillDown(s.(bars := s.bars + [Bar(o, Max(o, s.renkoLow), Min(o, s.renkoLow), s.renkoLow, time, 0)],
                  renkoHigh := s.renkoLow + 2 * s.offset,
                  renkoLow := s.renkoLow - s.offset),
               close, time)
    else s
  }

  /** Upward breakout: correct the open bar, advance the thresholds, fill the
      gap, reset the wicks and append the new open brick. */
  function BreakUp(s: Series, close: int, time: int, volume: int): (r: Series)
    requires s.offset > 0 && s.bars != []
    ensures r.offset == s.offset && |r.bars| > |s.bars|
    ensures Last(r.bars).close == close && r.wickHigh == close == r.wickLow
    ensures close >= s.renkoHigh ==> r.renkoLow < close < r.renkoHigh
  {
    var advanced := s.(bars := CorrectLast(s.bars, UpTarget(s)),
                       renkoLow := s.renkoHigh - 2 * s.offset,
                       renkoHigh := s.renkoHigh + s.offset);
    var filled := FillUp(advanced, close, time);
    var o := filled.renkoHigh - filled.offset;
    filled.(wickHigh := close, wickLow := close,
            bars := filled.bars + [Bar(o, Max(o, close), Min(o, close), close, time, volume)])
  }

  /** Downward breakout, mirroring BreakUp. */
  function BreakDown(s: Series, close: int, time: int, volume: int): (r: Series)
    requires s.offset > 0 && s.bars != []
    ensures r.offset == s.offset && |r.bars| > |s.bars|
    ensures Last(r.bars).close == close && r.wickHigh == close == r.wickLow
    ensures close <= s.renkoLow ==> r.renkoLow < close < r.renkoHigh
  {
    var advanced := s.(bars := CorrectLast(s.bars, DownTarget(s)),
                       renkoHigh := s.renkoLow + 2 * s.offset,
                       renkoLow := s.renkoLow - s.offset);
    var filled := FillDown(advanced, close, time);
    var o := filled.renkoLow + filled.offset;
    filled.(wickHigh := close, wickLow := close,
            bars := filled.bars + [Bar(o, Max(o, close), Min(o, close), close, time, volume)])
  }

  /** No breakout: UpdateBar on the open bar, its open kept. */
  function Hold(s: Series, close: int, time: int, volume: int): (r: Series)
    requires s.bars != []
    ensures |r.bars| == |s.bars| && r.bars[..|s.bars| - 1] == s.bars[..|s.bars| - 1]
    ensures Last(r.bars).open == Last(s.bars).open && Last(r.bars).close == close
    ensures Last(r.bars).low <= Last(r.bars).open <= Last(r.bars).high
    ensures r.renkoHigh == s.renkoHigh && r.renkoLow == s.renkoLow && r.offset == s.offset
  {
    var o := Last(s.bars).open;
    s.(bars := ReplaceLast(s.bars, Bar(o, Max(o, s.wickHigh), Min(o, s.wickLow), close, time, volume)))
  }

  /** One call of OnDataPoint. */
  function Step(s: Series, offset: int, resetOnNewTradingDay: bool, newSession: bool, t: Tick): (r: Series)
    requires offset > 0
    ensures r.offset == offset && |r.bars| >= |s.bars| && r.bars != []
    ensures Last(r.bars).close == t.close
    ensures r.renkoLow < t.close < r.renkoHigh
  {
    if Starts(s.bars, resetOnNewTradingDay, newSession) then Seed(s, offset, t.close, t.time, t.volume)
    else
      var a := Armed(s, offset, t);
      if t.close >= a.renkoHigh then BreakUp(a, t.close, t.time, t.volume)
      else if t.close <= a.renkoLow then BreakDown(a, t.close, t.time, t.volume)
      else Hold(a, t.close, t.time, t.volume)
  }

  /** One data point together with the session query's answer for it. */
  datatype Input = Input(tick: Tick, newSession: bool)

  /** A stream of data points fed one by one. */
  function Run(s: Series, offset: int, resetOnNewTradingDay: bool, inputs: seq<Input>): (r: Series)
    requires offset > 0
    ensures |r.bars| >= |s.bars|
    ensures inputs != [] ==> r.offset == offset && r.bars != [] && Last(r.bars).close == inputs[|inputs| - 1].tick.close
    ensures inputs != [] ==> r.renkoLow < inputs[|inputs| - 1].tick.close < r.renkoHigh
    decreases |inputs|
  {
    if inputs == [] then s
    else Run(Step(s, offset, resetOnNewTradingDay, inputs[0].newSession, inputs[0].tick),
             offset, resetOnNewTradingDay, inputs[1..])
  }
}

=== FILE: renko_wicks_bars_type.dfy ===
/** The Renko-with-wicks bars type: a builder that turns data points into
    fixed-size bricks, keeping the highest high and lowest low seen while
    each brick formed. */
module BarsTypes {
  import opened Data
  import opened RenkoSpec

  /** The brick size a new bars period gets, in ticks. */
  const DefaultBrickSize := 20

  /** Sets the default brick size on a bars period. */
  method ApplyDefaultValue(period: BarsPeriod)
    modifies period
    ensures period.value == DefaultBrickSize
  {
    period.value := DefaultBrickSize;
  }

  class RenkoWicksBarsType {
    /** The brick size in price units. */
    var offset: int
    /** The upper and lower breakout thresholds of the forming brick. */
    var renkoHigh: int
    var renkoLow: int
    /** The highest high and lowest low since the forming brick opened. */
    var currentWickHigh: int
    var currentWickLow: int

    constructor ()
      ensures offset == 0 && renkoHigh == 0 && renkoLow == 0
      ensures currentWickHigh == 0 && currentWickLow == 0
    {
      offset, renkoHigh, renkoLow := 0, 0, 0;
      currentWickHigh, currentWickLow := 0, 0;
    }

    /** The builder's fields together with the bars it writes. */
    function Model(bars: Bars): (r: Series)
      reads this, bars
    {
      Series(offset, renkoHigh, renkoLow, currentWickHigh, currentWickLow, bars.items)
    }

    /** Processes one data point. */
    method OnDataPoint(bars: Bars, high: int, low: int, close: int, time: int, volume: int, newSession: bool)
      requires bars.barsPeriod.value > 0 && bars.tickSize > 0
      modifies this, bars
      ensures offset == bars.barsPeriod.value * bars.tickSize
      ensures Model(bars) == Step(old(Model(bars)), offset, bars.isResetOnNewTradingDay, newSession,
                                  Tick(high, low, close, time, volume))
      ensures bars.lastPrice == close
    {
      ghost var s := Model(bars);
      ghost var t := Tick(high, low, close, time, volume);
      offset := bars.barsPeriod.value * bars.tickSize;
      assert offset > 0;

      if |bars.items| == 0 || (bars.isResetOnNewTradingDay && newSession) {
        StartSeries(bars, close, time, volume);
        bars.lastPrice := close;
        assert Model(bars) == Step(s, offset, bars.isResetOnNewTradingDay, newSession, t);
        return;
      }

      currentWickHigh := Max(currentWickHigh, high);
      currentWickLow := Min(currentWickLow, low);

      ReseedIfUnset(bars);
      ghost var a := Model(bars);
      assert a == Armed(s, offset, t);
      if close >= renkoHigh {
        BreakoutUp(bars, close, time, volume);
        assert Model(bars) == BreakUp(a, close, time, volume);
      } else if close <= renkoLow {
        BreakoutDown(bars, close, time, volume);
        assert Model(bars) == BreakDown(a, close, time, volume);
      } else {
        var barOpen := bars.items[|bars.items| - 1].open;
        bars.UpdateBar(Max(barOpen, currentWickHigh), Min(barOpen, currentWickLow), close, time, volume);
        assert Model(bars) == Hold(a, close, time, volume);
      }

      bars.lastPrice := close;
    }

    /** Lazy re-seed: a threshold still at zero is rebuilt from the last
        bar alone, or from the direction of the bar before it. */
    method ReseedIfUnset(bars: Bars)
      requires bars.items != []
      modifies this
      ensures offset == old(offset)
      ensures Model(bars) == Reseed(old(Model(bars)))
    {
      if renkoHigh == 0 || renkoLow == 0 {
        if |bars.items| == 1 {
          renkoHigh := bars.items[0].open + offset;
          renkoLow := bars.items[0].open - offset;
        } else if bars.items[|bars.items| - 2].close > bars.items[|bars.items| - 2].open {
          renkoHigh := bars.items[|bars.items| - 2].close + offset;
          renkoLow := bars.items[|bars.items| - 2].close - offset * 2;
        } else {
          renkoHigh := bars.items[|bars.items| - 2].close + offset * 2;
          renkoLow := bars.items[|bars.items| - 2].close - offset;
        }
      }
    }

    /** First bar or session reset: the last bar is flattened at its own
        close and a flat bar opens at the data point's close. */
    method StartSeries(bars: Bars, close: int, time: int, volume: int)
      requires offset > 0
      modifies this, bars
      ensures offset == old(offset) && bars.lastPrice == old(bars.lastPrice)
      ensures Model(bars) == Seed(old(Model(bars)), offset, close, time, volume)
    {
      if |bars.items| > 0 {
        var lastBarClose := bars.items[|bars.items| - 1].close;
        var lastBarTime := bars.items[|bars.items| - 1].time;
        var lastBarVolume := bars.items[|bars.items| - 1].volume;
        bars.RemoveLastBar();
        bars.AddBar(lastBarClose, lastBarClose, lastBarClose, lastBarClose, lastBarTime, lastBarVolume);
      }
      renkoHigh := close + offset;
      renkoLow := close - offset;
      currentWickHigh := close;
      currentWickLow := close;
      bars.AddBar(close, close, close, close, time, volume);
    }

    /** Upward breakout: correct the open bar to its closed shape, fill the
        gap with empty bricks and open a new brick. */
    method BreakoutUp(bars: Bars, close: int, time: int, volume: int)
      requires offset > 0 && bars.items != [] && close >= renkoHigh
      modifies this, bars
      ensures offset == old(offset) && bars.lastPrice == old(bars.lastPrice)
      ensures Model(bars) == BreakUp(old(Model(bars)), close, time, volume)
    {
      ghost var s := Model(bars);
      var lastIndex := |bars.items| - 1;
      var barOpen := bars.items[lastIndex].open;
      var barHigh := bars.items[lastIndex].high;
      var barLow := bars.items[lastIndex].low;
      var barVolume := bars.items[lastIndex].volume;
      var barTime := bars.items[lastIndex].time;

      var brickOpenUp := renkoHigh - offset;
      var effectiveWickHigh := Min(currentWickHigh, renkoHigh);
      var effectiveWickLow := currentWickLow;
      if barOpen != brickOpenUp || barHigh != Max(brickOpenUp, effectiveWickHigh)
        || barLow != Min(brickOpenUp, effectiveWickLow)
      {
        bars.RemoveLastBar();
        bars.AddBar(brickOpenUp, Max(brickOpenUp, effectiveWickHigh), Min(brickOpenUp, effectiveWickLow),
                    renkoHigh, barTime, barVolume);
      }
      renkoLow := renkoHigh - 2 * offset;
      renkoHigh := renkoHigh + offset;

      assert bars.items == CorrectLast(s.bars, UpTarget(s));
      GapFillUp(bars, close, time);

      currentWickHigh := close;
      currentWickLow := close;
      var newBrickOpenUp := renkoHigh - offset;
      bars.AddBar(newBrickOpenUp, Max(newBrickOpenUp, currentWickHigh), Min(newBrickOpenUp, currentWickLow),
                  close, time, volume);
    }

    /** The upward gap-fill loop: one zero-volume brick per further brick
        size the close has travelled. */
    method GapFillUp(bars: Bars, close: int, time: int)
      requires offset > 0
      modifies this, bars
      ensures offset == old(offset) && bars.lastPrice == old(bars.lastPrice)
      ensures Model(bars) == FillUp(old(Model(bars)), close, time)
    {
      while close >= renkoHigh
        invariant offset == old(offset) > 0 && bars.lastPrice == old(bars.lastPrice)
        invariant FillUp(Model(bars), close, time) == FillUp(old(Model(bars)), close, time)
        decreases close - renkoHigh
      {
        var brickOpenEmpty := renkoHigh - offset;
        bars.AddBar(brickOpenEmpty, Max(brickOpenEmpty, renkoHigh), Min(brickOpenEmpty, renkoHigh),
                    renkoHigh, time, 0);
        renkoLow := renkoHigh - 2 * offset;
        renkoHigh := renkoHigh + offset;
      }
    }

    /** Downward breakout, mirroring BreakoutUp. */
    method BreakoutDown(bars: Bars, close: int, time: int, volume: int)
      requires offset > 0 && bars.items != [] && close <= renkoLow
      modifies this, bars
      ensures offset == old(offset) && bars.lastPrice == old(bars.lastPrice)
      ensures Model(bars) == BreakDown(old(Model(bars)), close, time, volume)
    {
      ghost var s := Model(bars);
      var lastIndex := |bars.items| - 1;
      var barOpen := bars.items[lastIndex].open;
      var barHigh := bars.items[lastIndex].high;
      var barLow := bars.items[lastIndex].low;
      var barVolume := bars.items[lastIndex].volume;
      var barTime := bars.items[lastIndex].time;

      var brickOpenDown := renkoLow + offset;
      var effectiveWickLow := Max(currentWickLow, renkoLow);
      var effectiveWickHigh := currentWickHigh;
      if barOpen != brickOpenDown || barHigh != Max(brickOpenDown, effectiveWickHigh)
        || barLow != Min(brickOpenDown, effectiveWickLow)
      {
        bars.RemoveLastBar();
        bars.AddBar(brickOpenDown, Max(brickOpenDown, effectiveWickHigh), Min(brickOpenDown, effectiveWickLow),
                    renkoLow, barTime, barVolume);
      }
      renkoHigh := renkoLow + 2 * offset;
      renkoLow := renkoLow - offset;

      assert bars.items == CorrectLast(s.bars, DownTarget(s));
      GapFillDown(bars, close, time);

      currentWickHigh := close;
      currentWickLow := close;
      var newBrickOpenDown := renkoLow + offset;
      bars.AddBar(newBrickOpenDown, Max(newBrickOpenDown, currentWickHigh), Min(newBrickOpenDown, currentWickLow),
                  close, time, volume);
    }

    /** The downward gap-fill loop: one zero-volume brick per further brick
        size the close has travelled. */
    method GapFillDown(bars: Bars, close: int, time: int)
      requires offset > 0
      modifies this, bars
      ensures offset == old(offset) && bars.lastPrice == old(bars.lastPrice)
      ensures Model(bars) == FillDown(old(Model(bars)), close, time)
    {
      while close <= renkoLow
        invariant offset == old(offset) > 0 && bars.lastPrice == old(bars.lastPrice)
        invariant FillDown(Model(bars), close, time) == FillDown(old(Model(bars)), close, time)
        decreases renkoLow - close
      {
        var brickOpenEmptyDown := renkoLow + offset;
        bars.AddBar(brickOpenEmptyDown, Max(brickOpenEmptyDown, renkoLow), Min(brickOpenEmptyDown, renkoLow),
                    renkoLow, time, 0);
        renkoHigh := renkoLow + 2 * offset;
        renkoLow := renkoLow - offset;
      }
    }
  }
}
